=== FILE: README.md ===
# authz-rag-webapp in Dafny

A model of the decision logic of authz-rag-webapp, a Next.js chat application
that answers questions from Google Drive documents the user may read. Its
parts:

- The chat window's submit handler (`handleSubmit`). It is a staged pipeline:
  login gate, empty/busy gate, Prompt Guard screening, AI Guard (data guard)
  redaction of the prompt, an empty-prompt halt, the LLM call, redaction of
  the reply, and the transcript update. Messages are keyed by `hashCode`.
- The browser proxy (`baseProxyRequest` and its three wrappers) and the four
  payload builders of the chat window.
- The chat API route (`POST /api/ai`). It validates the token, fetches the
  documents, filters them through one AuthZ check per document when asked,
  and assembles the prompt variables.
- The request helpers of the API routes: bearer-token extraction, token
  validation, `postRequest` with its 202 polling schedule, URL and header
  formatting.
- The Prompt Guard API route (`POST /api/prompt`).
- The set-up script that turns Drive permissions into AuthZ tuples.

External services (Pangea AuthN, AuthZ, Prompt Guard and AI Guard, the Drive
retriever, the OpenAI chain, `fetch`) are not modelled. Each is a parameter
holding its answer: a `FetchOutcome`, an `Exchange` (first reply plus the
replies to the polls), or a function from call index to `Result`. Service
replies are `Json` values. The module `Json` models the JavaScript used on
them:

- `a.b` throws on `undefined` and `null`;
- `a?.b` gives `undefined` instead;
- truthiness;
- `String(v)` and `JSON.stringify`.

With this, the TypeErrors that the handler's `try` blocks catch are part of
the model.

`handleSubmit` is modelled in two layers:

- `ChatWindow.Submit` decides from the toggles and an `Answers` value (what
  each service answered, as the handler reads it) which calls are made,
  which messages are appended and how the submission ends.
- `ChatWindow.HandleSubmit` reads the `Answers` off the four proxy replies
  with `ReadScreening`, `ReadRedaction` and `ReadLlm`.

Message keys need `Date.now()`, so they are computed by `ChatWindow.Key` from
the message and a `stamp`.

Modules, one per file:

- `types.dfy`: `Types`
- `text.dfy`: `Text` (join and split)
- `json.dfy`: `Json`
- `hash.dfy`: `Hash` (`hashCode`)
- `http.dfy`: `Http` (responses and fetch outcomes)
- `requests.dfy`: `Requests`
- `proxy.dfy`: `Proxy`
- `chat_utils.dfy`: `ChatUtils`
- `chat_window.dfy`: `ChatWindow`
- `chat_properties.dfy`: `ChatProperties` (the handler's properties against
  reference definitions)
- `ai_route.dfy`: `AiRoute`
- `prompt_route.dfy`: `PromptRoute`
- `authz_tuples.dfy`: `AuthzTuples`
- `end_to_end.dfy`: `EndToEnd` (the chat window and the chat route together)

Three behaviours of the code worth knowing before reading the contracts:

- A rejected `authz.check` rejects the whole `Promise.all`, so the request
  fails. It does not deny just that one document.
- The polling waits are 4000, 9000 and 16000 ms (`retryCount` is incremented
  before the wait is computed).
- The chat route answers with the bare reply string, not a structure with a
  `reply` field. `AiRoute.Post(AsWritten, …)` models that route;
  `AiRoute.Post(Corrected, …)` answers `{reply}` instead. See "Findings".

## Model

| member | source | states |
|---|---|---|
| Hash.HashValue | src/app/features/ChatWindow/index.tsx:31-37 | the unsigned value `hash >>> 0` is below 2^32 and equals the polynomial hash Σ c_i·31^(n−1−i) mod 2^32 over the string's UTF-16 code units |
| Hash.HashStateIsPolynomial | src/app/features/ChatWindow/index.tsx:32-36 | modulo 2^32, the loop `hash = (hash << 5) - hash + char` (int32 shift, exact subtraction and addition) computes the polynomial hash |
| Hash.StepIsHorner | src/app/features/ChatWindow/index.tsx:35 | one loop step is 31·h + c up to a multiple of 2^32 |
| Hash.HashStateBound | src/app/features/ChatWindow/index.tsx:32-36 | after n code units the loop state is at most n·(2^31 + 2^16) in magnitude |
| Hash.HashStateExact | src/app/features/ChatWindow/index.tsx:32-36 | for up to 2^21 code units every intermediate value is below 2^53 in magnitude, so a double holds it exactly and the integer model is the JavaScript computation |
| Hash.Base36RoundTrip | src/app/features/ChatWindow/index.tsx:37 | `toString(36)` is read back to the number it renders |
| Hash.Base36Length | src/app/features/ChatWindow/index.tsx:37 | a number below 36^k renders in at most k base-36 digits |
| Hash.LeadingZeros | src/app/features/ChatWindow/index.tsx:37 | left-padding with '0' does not change the value denoted |
| Hash.HashPrefix | src/app/features/ChatWindow/index.tsx:37 | the padded rendering is exactly 7 base-36 digits (2^32 < 36^7) and denotes the unsigned hash value |
| Hash.HashPrefixIdentifiesValue | src/app/features/ChatWindow/index.tsx:37 | two strings get the same 7-digit prefix if and only if they have the same unsigned hash |
| Hash.HashCode | src/app/features/ChatWindow/index.tsx:31-38 | the key of a string is 7 base-36 digits denoting its unsigned hash, followed by the `Date.now()` stamp |
| ChatWindow.SameStampKeys | src/app/features/ChatWindow/index.tsx:31-38 | two keys taken at the same stamp are equal if and only if the texts have the same 32-bit hash |
| ChatWindow.HashableLoop | src/app/features/ChatWindow/index.tsx:31-36 | the `for` loop over `str.length` and `charCodeAt` throws exactly on the values `Hashable` excludes; on a string it ends with the polynomial hash state, on other values with 0 |
| ChatWindow.HashOf | src/app/features/ChatWindow/index.tsx:31-38 | `hashCode(v)` throws exactly for `undefined`, `null`, a non-empty array or an object with a positive `length`; a hashable non-string hashes like "" |
| ChatWindow.Key | src/app/features/ChatWindow/index.tsx:181-185 | the reply message's key exists exactly when its output is hashable; the prompt and report messages always have one |
| ChatWindow.ReadScreening | src/app/features/ChatWindow/index.tsx:94-111 | screening fails exactly when the prompt-guard promise rejects; it is unreadable exactly when the response's `result` is `undefined` or `null`; otherwise `detected` is the truthiness of `result.detected` |
| ChatWindow.ReadRedaction | src/app/features/ChatWindow/index.tsx:121-130 | redaction fails exactly when the promise rejects or `result` is `undefined` or `null`; otherwise findings and text are `result.findings` and `result.redacted_prompt` of that response |
| ChatWindow.ReadLlm | src/app/features/ChatWindow/index.tsx:149-160 | the LLM answer is missing exactly when the promise rejects or resolves to `null`; otherwise the reply is `response.reply` |
| ChatWindow.Send | src/app/features/ChatWindow/utils.ts:7-48 | each call goes to its route with `Bearer {token}`, settles as the proxy settles its reply, and carries the chat body `{authz, userPrompt}` or the redaction body `{recipe, text}` with the right recipe |
| ChatWindow.AnswersComeFromReplies | src/app/features/ChatWindow/index.tsx:94-166 | each stage's answer is read from the reply to that very call |
| ChatWindow.HandleSubmit | src/app/features/ChatWindow/index.tsx:67-194 | a prompt guard reply that is a network error, a non-2xx status or has no body halts with "Prompt Guard call failed, please try again" and no report; a reply with truthy `result.detected` halts as suspicious after its report; a failed prompt redaction (prompt guard off) halts with the AI Guard failure before the LLM |
| ChatWindow.Submit | src/app/features/ChatWindow/index.tsx:67-194 | signed out: only the login dialog opens; empty prompt, loading or busy: nothing happens; otherwise the pipeline runs with the prompt appended first; a halt or a completion clears `processing` |
| ChatProperties.SignedOutOpensLogin | src/app/features/ChatWindow/index.tsx:69-72 | not authenticated: no call, no message, the login dialog opens |
| ChatProperties.BusyOrEmptyIgnored | src/app/features/ChatWindow/index.tsx:75-77 | an empty prompt, `loading` or a non-empty `processing` makes submit a no-op |
| ChatProperties.CallsFollowPlan | src/app/features/ChatWindow/index.tsx:90-179 | the routes called are a prefix of: prompt guard, data guard, chat, data guard (guards as enabled); a run that reaches the end calls all of them |
| ChatProperties.CallsWhenLlmReached | src/app/features/ChatWindow/index.tsx:90-179 | a run that reaches the LLM makes the guard calls on the prompt, one chat call with the chosen prompt and the authz toggle, then (data guard on, LLM answered) the reply redaction |
| ChatProperties.CallsWhenLlmNotReached | src/app/features/ChatWindow/index.tsx:90-141 | a run that stops before the LLM makes only guard calls on the prompt |
| ChatProperties.LlmCalledOnlyWhenSafe | src/app/features/ChatWindow/index.tsx:104-153 | the LLM is asked if and only if screening passes, redaction answers and the prompt to send is truthy; it is sent the redacted prompt when the data guard is on and the typed prompt otherwise |
| ChatProperties.ScreeningHalts | src/app/features/ChatWindow/index.tsx:90-111 | a detection halts with "Processing halted: suspicious prompt", a failed or unreadable screening with "Prompt Guard call failed, please try again"; the screening call is the only call |
| ChatProperties.RedactionFailureHalts | src/app/features/ChatWindow/index.tsx:117-135 | a failed prompt redaction halts with "AI Guard call failed, please try again" before the LLM call |
| ChatProperties.EmptyPromptHalts | src/app/features/ChatWindow/index.tsx:137-141 | a falsy prompt after redaction halts as suspicious with only the guard calls made |
| ChatProperties.LlmFailureHalts | src/app/features/ChatWindow/index.tsx:148-160 | a failed LLM call halts with "LLM call failed, please try again" after the chat call, and no reply message is appended |
| ChatProperties.CompletesIff | src/app/features/ChatWindow/index.tsx:162-193 | a run completes exactly when it reaches the LLM, the LLM answers and the reply shown is hashable; it crashes exactly when that reply is not hashable |
| ChatProperties.AppendedWhenCompleted | src/app/features/ChatWindow/index.tsx:79-192 | on completion the transcript gains the prompt, the guards' reports on it, the reply shown, then the reply guard's report; an error is shown only when reply redaction failed |
| ChatProperties.CompletedTranscript | src/app/features/ChatWindow/index.tsx:176-192 | on completion the message types are in order user_prompt, prompt_guard, ai_guard, llm_response, ai_guard (as enabled), every message has a key, and a failed reply redaction leaves the unredacted reply as the last message |
| ChatProperties.CrashLeavesChatBusy | src/app/features/ChatWindow/index.tsx:181-193 | a crash in `hashCode` leaves `processing` set unless the reply guard's failure already cleared it; with it set every later submit is ignored |
| ChatProperties.HaltReleasesChat | src/app/features/ChatWindow/index.tsx:61-65 | every halt clears `processing` and appends no reply |
| ChatProperties.GuardCallsCarryPrompt | src/app/features/ChatWindow/index.tsx:94-121 | screening and prompt redaction are sent the prompt typed |
| ChatProperties.RequestsCarryPrompt | src/app/features/ChatWindow/index.tsx:117-153 | the chat request's `userPrompt` is the data guard's `result.redacted_prompt` when the data guard is on, the typed prompt otherwise |
| ChatUtils.GuardBodyFields | src/app/features/ChatWindow/utils.ts:29-48 | a redaction body has `recipe` and `text` as given, `text` absent when `undefined` |
| ChatUtils.SendUserMessage | src/app/features/ChatWindow/utils.ts:7-16 | the chat route gets `userPrompt` = the message and `authz` = the flag, true when not passed |
| ChatUtils.CallPromptGuard | src/app/features/ChatWindow/utils.ts:18-27 | the prompt route gets `messages` holding one `{content: userPrompt, role: "user"}` |
| ChatUtils.CallInputDataGuard | src/app/features/ChatWindow/utils.ts:29-36 | the data route gets recipe `pangea_prompt_guard` and the prompt as `text` |
| ChatUtils.CallResponseDataGuard | src/app/features/ChatWindow/utils.ts:38-48 | the data route gets recipe `pangea_llm_response_guard` and the reply as `text` |
| Proxy.ProxyUrlRoundTrip | src/app/proxy.ts:31-32 | the URL `/api/{service}{?action=…}` names the service and the action: both are read back from it, with an empty action giving no query |
| Proxy.BaseRequest | src/app/proxy.ts:32-41 | a POST to the proxy URL with the JSON body and `authorization: Bearer {token}` |
| Proxy.Settle | src/app/proxy.ts:43-49 | the call resolves exactly when `fetch` answers with a status in 200..299 and a JSON body, and then to that body |
| Proxy.BaseProxyRequest | src/app/proxy.ts:25-50 | the request as above and a result that is the parsed body exactly for 2xx replies |
| Proxy.DataGuardProxyRequest | src/app/proxy.ts:1-7 | service `data`, no action: URL `/api/data` |
| Proxy.PromptGuardProxyRequest | src/app/proxy.ts:9-16 | service `prompt`, no action: URL `/api/prompt` |
| Proxy.AiProxyRequest | src/app/proxy.ts:18-23 | service `ai`, no action: URL `/api/ai` |
| Requests.ExtractToken | src/app/api/requests.ts:9-15 | a token is found only in a header matching `/^bearer/i`, and contains no space |
| Requests.BearerRoundTrip | src/app/api/requests.ts:15 | from `{scheme} {token}` with a bearer scheme the token is the second space-separated field |
| Requests.GetUrl | src/app/api/requests.ts:76-78 | `https://{service}.{domain}/{endpoint}` ends with `/{endpoint}` |
| Requests.GetUrlNamesService | src/app/api/requests.ts:76-78 | for a service name without a dot, the host of the URL names the service |
| Requests.GetHeaders | src/app/api/requests.ts:80-87 | the content type is JSON, and the token chosen (client or service) is read back from the `Bearer` header whenever it holds no space |
| Requests.HeadersChooseToken | src/app/api/requests.ts:80-87 | the bearer token is the client token if and only if `useClientToken` |
| Requests.Poll | src/app/api/requests.ts:59-74 | while the status is 202 and `retryCount` ≤ 3, wait `retryCount²·1000` ms after incrementing and poll again; stop at the first non-202 reply and return the last reply |
| Requests.PollingSchedule | src/app/api/requests.ts:62-73 | from a 202 reply: one to three polls after waits 4000, 9000, 16000 ms in order, ending on a non-202 reply or the third poll |
| Requests.Conclude | src/app/api/requests.ts:46-49 | the final reply is accepted exactly when its body is JSON other than `null`, and `success` holds iff its `status` is exactly "Success" |
| Requests.PollUrl | src/app/api/requests.ts:61 | the polled URL is `https://`, the interpolated domain, `/request/` and the reply's `request_id` when it is a string, or `undefined` when the reply has none |
| Requests.PostRequest | src/app/api/requests.ts:31-50 | one POST with the chosen headers; polling only after a first 202, at the URL built from that 202 reply's body; the waits and the outcome are those of polling over the later replies, concluded on the last one; a 202 without a parsable body rejects; the waits follow the schedule; success iff `status` is "Success" |
| Requests.ValidateToken | src/app/api/requests.ts:11-29 | no token: no call and `{success: false}`; otherwise one POST of `{token}` to the token-check endpoint with the client token; it throws iff the POST does, and otherwise succeeds iff the AuthN reply's `status` is "Success", with username and profile from `result.owner` and `result.profile` |
| AiRoute.Kept | src/app/api/ai/route.ts:64-73 | the kept positions are exactly the allowed ones, strictly increasing |
| AiRoute.DropNullsAppend | src/app/api/ai/route.ts:73 | the null filter distributes over appending one element |
| AiRoute.SurvivorsAppend | src/app/api/ai/route.ts:64-73 | the reference filter extends document by document |
| AiRoute.FilterKeepsAllowed | src/app/api/ai/route.ts:64-73 | mapping denied documents to `null` and filtering nulls yields exactly the allowed documents in their original order |
| AiRoute.SurvivorMembership | src/app/api/ai/route.ts:64-73 | a document survives exactly when a position holding it was allowed |
| AiRoute.CheckAll | src/app/api/ai/route.ts:64-73 | `Promise.all` of the checks, gathered one by one, resolves iff every check does, with the answers in document order |
| AiRoute.Context | src/app/api/ai/route.ts:79 | no documents give an empty context, one document its own text, and the first document's text leads |
| AiRoute.ContextAppend | src/app/api/ai/route.ts:79 | the context of two runs of documents is their contexts joined by a blank line |
| AiRoute.FilterDocs | src/app/api/ai/route.ts:60-74 | without authz the documents pass unchanged; with it the step succeeds iff every check answers, giving exactly the allowed documents in order |
| AiRoute.Variables | src/app/api/ai/route.ts:76-81 | first and last name come from `profile` (a TypeError without one), the context from the documents, the question from `body.userPrompt` |
| AiRoute.BareReply | src/app/api/ai/route.ts:82 | as written, the response is a JSON string without a `reply` property |
| AiRoute.ReplyResponse | src/app/api/ai/route.ts:82 | corrected: the response carries the chain's text as `reply` |
| AiRoute.Serve | src/app/api/ai/route.ts:57-82 | one check per document when authz is on; the chain sees all documents without authz and the allowed ones with it; a rejected check fails the request with no prompt built; once retrieval, the `authz` read, every needed check and the profile succeed, the prompt is built; whenever the chain answers, the response is its reply as a bare string (`AsWritten`) or as `{reply}` (`Corrected`), and a failed chain call rejects |
| AiRoute.OneCheckPerDocument | src/app/api/ai/route.ts:65-70 | with authz on, each document gets exactly one check, in order: subject `user`/username, action `read`, resource `file`/`doc.id` |
| AiRoute.Post | src/app/api/ai/route.ts:50-83 | a failed validation or a missing username gives 403 with no retrieval, no check and no chain call; otherwise the route serves the parsed body; every response other than a 403 or a rejection is the chain's reply, in the shape chosen |
| PromptRoute.Post | src/app/api/prompt/route.ts:8-26 | a failed validation or a missing username gives 403 before any forwarding; exactly the admitted requests with a parsable body are forwarded, unchanged, through `postRequest` to the Prompt Guard URL with the service token; a forwarded post that settles gets an answer and one that rejects rejects; 200 with the service's response on success, 400 with the same response otherwise |
| PromptRoute.TargetIsPromptGuard | src/app/api/prompt/route.ts:5-18 | the forwarded call goes to service `prompt-guard` at `v1beta/guard` |
| AuthzTuples.Relation | scripts/create-authz-tuples.ts:9-13 | only the roles owner, reader and writer map, to owner, reader and editor |
| AuthzTuples.RelationInjective | scripts/create-authz-tuples.ts:9-13 | different mapped roles get different relations, and only the three roles map |
| AuthzTuples.AllTuplesLength | scripts/create-authz-tuples.ts:46-61 | there are as many tuples as permissions over all documents |
| AuthzTuples.TotalMonotone | scripts/create-authz-tuples.ts:46-61 | the permissions up to and including a document are part of the total |
| AuthzTuples.AllTuplesIndex | scripts/create-authz-tuples.ts:46-61 | the tuple for permission j of document d sits at the position after all earlier permissions: one per pair, ordered by document then permission, subject `user`/email and resource `file`/`doc.id` |
| AuthzTuples.ListsOf | scripts/create-authz-tuples.ts:52 | one permission list per document, a missing list counting as empty |
| AuthzTuples.Run | scripts/create-authz-tuples.ts:26-64 | a failed retrieval fails; no documents: exit before any AuthZ call; otherwise the permissions of each file in turn and, if every listing succeeds, one creation of all tuples |
| EndToEnd.RouteReadsClientToken | src/app/api/requests.ts:14-15 | the route recovers the chat window's token from the `Bearer {token}` header |
| EndToEnd.RouteReadsChatBody | src/app/api/ai/route.ts:57-80 | the route's authz filtering is on iff the client's toggle is, and its question is the message sent |
| EndToEnd.RouteAnswersReply | src/app/api/ai/route.ts:76-82 | every response of the route other than a 403 or a rejection is its response to the chain's text, in the shape chosen |
| EndToEnd.BareReplyReadsUndefined | src/app/features/ChatWindow/index.tsx:149-154 | the client reads `undefined` as the reply of the route's bare-string response |
| EndToEnd.BareReplyServedUndefined | src/app/api/ai/route.ts:82 | whatever the route as written serves short of a 403 or a rejection, the client reads as an `undefined` reply |
| EndToEnd.BareReplyLocksChat | src/app/api/ai/route.ts:82 | as written, with the data guard off, when the client's chat reply is what `AiRoute.Post(AsWritten, …)` served: the submission crashes, no reply is shown, `processing` stays "Waiting for LLM response" and every later submit is ignored |
| EndToEnd.BareReplyRedactsNothing | src/app/features/ChatWindow/index.tsx:162-166 | as written, with the data guard on and the reply served by `AiRoute.Post(AsWritten, …)`: the reply guard is sent no text |
| EndToEnd.ClientReadsRouteReply | src/app/api/ai/route.ts:76-82 | with `AiRoute.Post(Corrected, …)`, the client reads the chain's text as the reply |
| EndToEnd.ReplyObjectCompletes | src/app/features/ChatWindow/index.tsx:154-193 | corrected, with the data guard off and the reply served by `AiRoute.Post(Corrected, …)`: the chain's text is the last message, the run completes and the chat is free |
| EndToEnd.ReplyObjectIsRedacted | src/app/features/ChatWindow/index.tsx:162-175 | corrected, with the data guard on and the reply served by `AiRoute.Post(Corrected, …)`: the reply guard is sent the chain's text |

## Left out

- Rendering, theming and layout (the JSX of the chat window and every other component), `context.tsx` (React state and `localStorage`), the Cloudflare worker, `src/utils.ts` and the Next.js configuration: they hold no decision logic of the core.
- React state setters with no effect on the pipeline's outcome are not modelled: `setLastPromptGuardResponse`, `setAiGuardResponses`, `setAuthzResponses`, `setDocuments` and the snackbar flags. `setUserPrompt("")` appears only through `ChatWindow.After`.
- The external services and `fetch` are answers given as parameters. Their behaviour, the sleeping in `delay` and the `console` output are not modelled.
- `Promise.all` concurrency: the checks are gathered in document order, since the code only relies on the order-preserving result; when several checks reject, the model keeps the first in document order rather than the first in time.
- The model assumes each `Date.now()` call returns the same `stamp`; the digits the clock gives are not modelled.
- Hash.HashValue: the integer model is the JavaScript double computation only for strings of up to 2^21 UTF-16 code units (`Hash.HashStateExact`). Longer strings would need double rounding, which is not modelled.
- ChatWindow.Hashable: an object whose `length` is a non-empty numeric string (where `0 < "3"` holds in JavaScript) or an array with a positive numeric string form (such as `{length: [3]}`, where `0 < [3]` holds) is treated as hashable, although JavaScript throws on it; `ChatWindow.Bound` converts only numeric and boolean `length` values.
- Json.Stringify: numbers are integers and object keys keep their order; floating point rendering and non-ASCII escapes are not modelled.
- AiRoute.Serve: the question is passed as the user prompt value itself rather than wrapped in a LangChain `HumanMessage`, and the system prompt template is not modelled.
- AiRoute.ReplyResponse: the corrected response carries only `reply`; the `authzResponses` and `documents` fields the client also reads only feed state setters left out above.
- AuthzTuples.Relation: role names that are keys of `Object.prototype` (such as `constructor`) are not modelled; every unmapped role gives an undefined relation.
- AiRoute.Context: its own contract covers no document and one document; longer lists are stated by `AiRoute.ContextAppend`.
- Requests.GetUrl: only the prefix and the endpoint suffix are stated; `process.env` values are given as optional strings (`undefined` renders as "undefined").

## Findings

| source | as written | input that shows it | evidently intended | confidence | as-written member | corrected member |
|---|---|---|---|---|---|---|
| src/app/api/ai/route.ts:82 | `Response.json(llmReply)` answers with a bare JSON string, but src/app/features/ChatWindow/index.tsx:154 reads `llmResponseStruct.reply` from it, which is `undefined` for a string; src/app/proxy.ts:18-21 types `aiProxyRequest` as `Promise<string>`, so the client's `.reply` read does not even type-check against it | a signed-in user with the data guard off sends any prompt and the chain answers "Hi": `hashCode(undefined)` throws, no reply is shown and `processing` stays "Waiting for LLM response", so the chat ignores every later submit | the route answers `{reply: llmReply}` (with the authz responses and documents the client also reads), and the chat shows the reply | medium-high; not executed; the files do not all come from one revision (src/app/context.tsx has no `authzEnabled`, which index.tsx reads), so the client may have been written against a different route | EndToEnd.BareReplyLocksChat | AiRoute.ReplyResponse |

=== FILE: ai_route.dfy ===
/** The chat API route (`POST /api/ai`): authenticate the caller, fetch every
    Drive document, keep those AuthZ lets the user read (when the request
    asks for it), and answer with the model's reply to a prompt built from
    the user's name, the kept documents and the question. */
module AiRoute {
  import opened Types
  import opened Json
  import opened Http
  import Text
  import Requests

  /** A retrieved Drive document: its file id and its text. */
  datatype Doc = Doc(id: string, pageContent: string)

  /** The argument of one `authz.check` call. */
  datatype CheckRequest = CheckRequest(subjectType: string, subjectId: Json, action: string,
                                       resourceType: string, resourceId: string)

  /** The variables handed to the prompt template: `{firstName}`,
      `{lastName}`, `{context}` and the question of the one human message. */
  datatype PromptVariables = PromptVariables(firstName: Option<Json>, lastName: Option<Json>,
                                             context: string, input: Option<Json>)

  /** The services the route calls: AuthN (through `validateToken`), the
      Drive retriever, AuthZ (`check(i)` is the `response.result.allowed` of
      the i-th check, or a rejection) and the prompt-model chain. */
  datatype Services = Services(authn: Exchange, retrieve: Result<seq<Doc>>,
                               check: nat -> Result<bool>, chain: PromptVariables -> Result<string>)

  /** What one request did: the token validation, whether the documents were
      fetched, the checks issued, the chain's input if it was invoked, and the
      response (`Throw` is an unhandled rejection, answered with a 500). */
  datatype AiRun = AiRun(validation: Requests.ValidateRun, retrieved: bool, checks: seq<CheckRequest>,
                         prompt: Option<PromptVariables>, response: Result<HttpResponse>)

  /** The check for one document: may user `username` read file `doc.id`? */
  function CheckFor(username: Json, doc: Doc): CheckRequest
  {
    CheckRequest("user", username, "read", "file", doc.id)
  }

  // ------------------------------------------------------ reference filter

  /** The positions whose check allowed the document, in increasing order. */
  function Kept(allowed: seq<bool>): (ks: seq<nat>)
    ensures forall j :: 0 <= j < |ks| ==> ks[j] < |allowed| && allowed[ks[j]]
    ensures forall j, k :: 0 <= j < k < |ks| ==> ks[j] < ks[k]
    ensures forall i :: 0 <= i < |allowed| && allowed[i] ==> i in ks
  {
    if |allowed| == 0 then []
    else
      var n := |allowed| - 1;
      Kept(allowed[..n]) + (if allowed[n] then [n] else [])
  }

  /** The allowed documents in their original order. */
  function Survivors(docs: seq<Doc>, allowed: seq<bool>): seq<Doc>
    requires |allowed| == |docs|
  {
    var ks := Kept(allowed);
    seq(|ks|, j requires 0 <= j < |ks| => docs[ks[j]])
  }

  // ------------------------------------------------------ the code's filter

  /** `results.filter((doc) => doc !== null)`. */
  function DropNulls(xs: seq<Option<Doc>>): seq<Doc>
  {
    if |xs| == 0 then []
    else (if xs[0].Some? then [xs[0].value] else []) + DropNulls(xs[1..])
  }

  lemma {:induction false} DropNullsAppend(xs: seq<Option<Doc>>, x: Option<Doc>)
    ensures DropNulls(xs + [x]) == DropNulls(xs) + (if x.Some? then [x.value] else [])
    decreases |xs|
  {
    if |xs| == 0 {
      assert xs + [x] == [x];
      assert [x][1..] == [];
    } else {
      assert (xs + [x])[0] == xs[0];
      assert (xs + [x])[1..] == xs[1..] + [x];
      DropNullsAppend(xs[1..], x);
    }
  }

  /** `docs.map(...)` once every check has answered: the document where it
      was allowed, `null` where it was not. */
  function Marked(docs: seq<Doc>, allowed: seq<bool>): seq<Option<Doc>>
    requires |allowed| == |docs|
  {
    seq(|docs|, i requires 0 <= i < |docs| => if allowed[i] then Some(docs[i]) else None)
  }

  lemma SurvivorsAppend(docs: seq<Doc>, allowed: seq<bool>)
    requires |allowed| == |docs| > 0
    ensures var n := |docs| - 1;
            Survivors(docs, allowed) ==
            Survivors(docs[..n], allowed[..n]) + (if allowed[n] then [docs[n]] else [])
  {
    var n := |docs| - 1;
    var ks := Kept(allowed);
    var ks' := Kept(allowed[..n]);
    assert ks == ks' + (if allowed[n] then [n] else []);
    var lhs := Survivors(docs, allowed);
    var rhs := Survivors(docs[..n], allowed[..n]) + (if allowed[n] then [docs[n]] else []);
    assert |lhs| == |rhs|;
    forall j | 0 <= j < |lhs|
      ensures lhs[j] == rhs[j]
    {
      if j < |ks'| {
        assert ks[j] == ks'[j] < n;
      }
    }
  }

  /** The code's map-then-filter yields exactly the allowed documents, in
      their original relative order. */
  lemma {:induction false} FilterKeepsAllowed(docs: seq<Doc>, allowed: seq<bool>)
    requires |allowed| == |docs|
    ensures DropNulls(Marked(docs, allowed)) == Survivors(docs, allowed)
    decreases |docs|
  {
    if |docs| == 0 {
      assert Marked(docs, allowed) == [];
    } else {
      var n := |docs| - 1;
      FilterKeepsAllowed(docs[..n], allowed[..n]);
      var m := Marked(docs, allowed);
      assert m == Marked(docs[..n], allowed[..n]) + [m[n]];
      DropNullsAppend(Marked(docs[..n], allowed[..n]), m[n]);
      SurvivorsAppend(docs, allowed);
    }
  }

  /** A document survives exactly when some position holding it was allowed. */
  lemma SurvivorMembership(docs: seq<Doc>, allowed: seq<bool>, d: Doc)
    requires |allowed| == |docs|
    ensures d in Survivors(docs, allowed) <==> exists i :: 0 <= i < |docs| && allowed[i] && docs[i] == d
  {
    var s := Survivors(docs, allowed);
    var ks := Kept(allowed);
    if d in s {
      var j :| 0 <= j < |s| && s[j] == d;
      assert allowed[ks[j]] && docs[ks[j]] == d;
    }
    if exists i :: 0 <= i < |docs| && allowed[i] && docs[i] == d {
      var i :| 0 <= i < |docs| && allowed[i] && docs[i] == d;
      assert i in ks;
      var j :| 0 <= j < |ks| && ks[j] == i;
      assert s[j] == d;
    }
  }

  /** `Promise.all(docs.map(check))`: every check is issued; the step rejects
      with the first rejection, and otherwise yields the verdicts in
      document order, whatever the order in which they arrive. */
  function CheckAll(docs: seq<Doc>, check: nat -> Result<bool>): (r: Result<seq<bool>>)
    ensures r.Ok? <==> forall i :: 0 <= i < |docs| ==> check(i).Ok?
    ensures r.Ok? ==> |r.value| == |docs| && forall i :: 0 <= i < |docs| ==> r.value[i] == check(i).value
    decreases |docs|
  {
    if |docs| == 0 then Ok([])
    else
      var n := |docs| - 1;
      match CheckAll(docs[..n], check)
      case Throw(e) => Throw(e)
      case Ok(verdicts) =>
        match check(n)
        case Throw(e) => Throw(e)
        case Ok(allowed) => Ok(verdicts + [allowed])
  }

  // ------------------------------------------------------ context

  /** `docs.map((doc) => doc.pageContent).join("\n\n")`: no documents give
      an empty context, one document its own text, and the text of the
      first document always leads (`ContextAppend` gives the rest). */
  function Context(docs: seq<Doc>): (r: string)
    ensures |docs| == 0 ==> r == ""
    ensures |docs| == 1 ==> r == docs[0].pageContent
    ensures |docs| > 0 ==> docs[0].pageContent <= r
  {
    Text.Join(seq(|docs|, i requires 0 <= i < |docs| => docs[i].pageContent), "\n\n")
  }

  /** The context of two non-empty runs of documents is their contexts
      separated by one blank line: each document appears once, in order. */
  lemma {:induction false} ContextAppend(a: seq<Doc>, b: seq<Doc>)
    requires |a| > 0 && |b| > 0
    ensures Context(a + b) == Context(a) + "\n\n" + Context(b)
    decreases |a|
  {
    var pa := seq(|a|, i requires 0 <= i < |a| => a[i].pageContent);
    var pab := seq(|a + b|, i requires 0 <= i < |a + b| => (a + b)[i].pageContent);
    if |a| == 1 {
      assert pab[0] == a[0].pageContent;
      assert pab[1..] == seq(|b|, i requires 0 <= i < |b| => b[i].pageContent);
    } else {
      ContextAppend(a[1..], b);
      assert (a + b)[1..] == a[1..] + b;
      assert pab[1..] == seq(|a[1..] + b|, i requires 0 <= i < |a[1..] + b| => (a[1..] + b)[i].pageContent);
      assert pa[1..] == seq(|a[1..]|, i requires 0 <= i < |a[1..]| => a[1..][i].pageContent);
    }
  }

  // ------------------------------------------------------ the route

  /** `body.authz` is truthy: the request asks for AuthZ filtering. */
  predicate AuthzOn(body: Json)
  {
    Truthy(OptMember(Some(body), "authz"))
  }

  /** The documents the model sees: filtered when the request asks for it
      (rejecting when one check rejects), all of them otherwise. */
  function FilterDocs(docs: seq<Doc>, authz: bool, check: nat -> Result<bool>): (r: Result<seq<Doc>>)
    ensures !authz ==> r == Ok(docs)
    ensures authz ==> (r.Ok? <==> forall i :: 0 <= i < |docs| ==> check(i).Ok?)
    ensures authz && r.Ok? ==> r.value == Survivors(docs, CheckAll(docs, check).value)
  {
    if !authz then Ok(docs)
    else
      match CheckAll(docs, check)
      case Throw(e) => Throw(e)
      case Ok(allowed) =>
        FilterKeepsAllowed(docs, allowed);
        Ok(DropNulls(Marked(docs, allowed)))
  }

  /** The chain's input: `profile.first_name` and `profile.last_name` (a
      TypeError when there is no profile), the context, and `body.userPrompt`. */
  function Variables(profile: Option<Json>, docs: seq<Doc>, body: Json): (r: Result<PromptVariables>)
    ensures r.Ok? <==> Accessible(profile)
    ensures r.Ok? ==> r.value.firstName == OptMember(profile, "first_name")
                      && r.value.lastName == OptMember(profile, "last_name")
                      && r.value.context == Context(docs)
                      && r.value.input == OptMember(Some(body), "userPrompt")
  {
    match Member(profile, "first_name")
    case Throw(e) => Throw(e)
    case Ok(first) =>
      Ok(PromptVariables(first, Prop(profile, "last_name"), Context(docs), OptMember(Some(body), "userPrompt")))
  }

  /** `Response.json(llmReply)` as the route writes it: the reply as a bare
      JSON string, which has no `reply` property for the client to read. */
  function BareReply(reply: string): (resp: HttpResponse)
    ensures resp.status == 200 && OptMember(resp.body, "reply").None?
  {
    HttpResponse(200, Some(JStr(reply)))
  }

  /** The response the client reads from, `{reply: llmReply}`: the route
      as evidently intended. */
  function ReplyResponse(reply: string): (resp: HttpResponse)
    ensures resp.status == 200 && OptMember(resp.body, "reply") == Some(JStr(reply))
  {
    HttpResponse(200, Some(JObj([Field("reply", JStr(reply))])))
  }

  /** Which response the route answers with: `Response.json(llmReply)` as
      written, or the `{reply: llmReply}` the client reads. */
  datatype Answer = AsWritten | Corrected

  /** The response to the chain's `reply`. */
  function Respond(answer: Answer, reply: string): HttpResponse
  {
    match answer
    case AsWritten => BareReply(reply)
    case Corrected => ReplyResponse(reply)
  }

  /** The caller passed validation with a username. */
  predicate Admitted(v: Requests.ValidateRun)
  {
    v.result.Ok? && v.result.value.success && Truthy(v.result.value.username)
  }

  /** What an admitted request did after its body parsed. */
  datatype Served = Served(checks: seq<CheckRequest>, prompt: Option<PromptVariables>,
                           response: Result<HttpResponse>)

  /** The route from the retrieval on, for an admitted `username` with
      `profile` and the parsed `body`, answering as `answer` says. */
  function Serve(answer: Answer, username: Json, profile: Option<Json>, body: Json, svc: Services): (s: Served)
    ensures s.checks != [] ==>
              AuthzOn(body) && svc.retrieve.Ok?
              && s.checks == seq(|svc.retrieve.value|, i requires 0 <= i < |svc.retrieve.value| =>
                                   CheckFor(username, svc.retrieve.value[i]))
    ensures s.prompt.Some? ==>
              svc.retrieve.Ok?
              && s.prompt.value.firstName == OptMember(profile, "first_name")
              && s.prompt.value.lastName == OptMember(profile, "last_name")
              && s.prompt.value.input == OptMember(Some(body), "userPrompt")
    ensures s.prompt.Some? && !AuthzOn(body) ==>
              s.checks == [] && s.prompt.value.context == Context(svc.retrieve.value)
    ensures s.prompt.Some? && AuthzOn(body) ==>
              var docs := svc.retrieve.value;
              (forall i :: 0 <= i < |docs| ==> svc.check(i).Ok?)
              && s.prompt.value.context == Context(Survivors(docs, CheckAll(docs, svc.check).value))
    ensures AuthzOn(body) && svc.retrieve.Ok?
            && (exists i :: 0 <= i < |svc.retrieve.value| && svc.check(i).Throw?) ==>
              s.prompt.None? && s.response.Throw?
    ensures s.response.Ok? ==>
              s.prompt.Some? && svc.chain(s.prompt.value).Ok?
              && s.response.value == Respond(answer, svc.chain(s.prompt.value).value)
    ensures svc.retrieve.Ok? && Member(Some(body), "authz").Ok? && Accessible(profile)
            && (AuthzOn(body) ==> forall i :: 0 <= i < |svc.retrieve.value| ==> svc.check(i).Ok?) ==>
              s.prompt.Some?
    ensures s.prompt.Some? && svc.chain(s.prompt.value).Ok? ==>
              s.response == Ok(Respond(answer, svc.chain(s.prompt.value).value))
    ensures s.prompt.Some? && svc.chain(s.prompt.value).Throw? ==> s.response.Throw?
  {
    match svc.retrieve
    case Throw(e) => Served([], None, Throw(e))
    case Ok(docs) =>
      match Member(Some(body), "authz")
      case Throw(e) => Served([], None, Throw(e))
      case Ok(authz) =>
        var on := Truthy(authz);
        var checks := if on then seq(|docs|, i requires 0 <= i < |docs| => CheckFor(username, docs[i]))
                      else [];
        match FilterDocs(docs, on, svc.check)
        case Throw(e) => Served(checks, None, Throw(e))
        case Ok(kept) =>
          match Variables(profile, kept, body)
          case Throw(e) => Served(checks, None, Throw(e))
          case Ok(vars) =>
            match svc.chain(vars)
            case Throw(e) => Served(checks, Some(vars), Throw(e))
            case Ok(reply) => Served(checks, Some(vars), Ok(Respond(answer, reply)))
  }

  /** `POST(request)`; `Post(AsWritten, …)` is the route as written. */
  function Post(answer: Answer, req: Incoming, env: Requests.Env, svc: Services): (run: AiRun)
    ensures run.validation == Requests.ValidateToken(req.authorization, env, svc.authn)
    ensures run.validation.result.Throw? ==> run.response.Throw?
    ensures run.response == Ok(Forbidden) <==> run.validation.result.Ok? && !Admitted(run.validation)
    ensures !Admitted(run.validation) ==> !run.retrieved && run.checks == [] && run.prompt.None?
    ensures run.retrieved <==> Admitted(run.validation) && req.body.Some?
    ensures run.checks != [] || run.prompt.Some? ==> Admitted(run.validation) && req.body.Some?
    ensures Admitted(run.validation) && req.body.Some? ==>
              var val := run.validation.result.value;
              Served(run.checks, run.prompt, run.response)
              == Serve(answer, val.username.value, val.profile, req.body.value, svc)
    ensures run.response.Ok? && run.response != Ok(Forbidden) ==>
              Admitted(run.validation) && run.prompt.Some? && svc.chain(run.prompt.value).Ok?
              && run.response.value == Respond(answer, svc.chain(run.prompt.value).value)
  {
    var v := Requests.ValidateToken(req.authorization, env, svc.authn);
    match v.result
    case Throw(e) => AiRun(v, false, [], None, Throw(e))
    case Ok(val) =>
      if !(val.success && Truthy(val.username)) then AiRun(v, false, [], None, Ok(Forbidden))
      else
        match req.body
        case None => AiRun(v, false, [], None, Throw("SyntaxError"))
        case Some(body) =>
          var s := Serve(answer, val.username.value, val.profile, body, svc);
          AiRun(v, true, s.checks, s.prompt, s.response)
  }

  /** With filtering on, every retrieved document gets exactly one check, in
      retrieval order, asking whether user `username` may read file `doc.id`. */
  lemma OneCheckPerDocument(answer: Answer, username: Json, profile: Option<Json>, body: Json, svc: Services)
    requires AuthzOn(body) && svc.retrieve.Ok?
    ensures var s := Serve(answer, username, profile, body, svc);
            var docs := svc.retrieve.value;
            |s.checks| == |docs|
            && forall i :: 0 <= i < |docs| ==>
                 s.checks[i] == CheckRequest("user", username, "read", "file", docs[i].id)
  {
  }
}

=== FILE: authz_tuples.dfy ===
/** The set-up script that copies Drive sharing into AuthZ: for every Drive
    document, one tuple per permission on it, relating the permission's user
    to the file with the AuthZ role that corresponds to the Drive role; all
    tuples are then created in one call. */
module AuthzTuples {
  import opened Types
  import AiRoute

  /** One entry of a file's Drive permission list; `None` where the field is
      missing. */
  datatype Permission = Permission(emailAddress: Option<string>, role: Option<string>)

  /** An AuthZ tuple `{subject: {type, id}, relation, resource: {type, id}}`;
      `None` where the script puts `undefined`. */
  datatype Tuple = Tuple(subjectType: string, subjectId: Option<string>, relation: Option<string>,
                         resourceType: string, resourceId: string)

  /** `GDRIVE_ROLE_TO_AUTHZ_ROLE[role]`: Drive's owner, reader and writer
      are AuthZ's owner, reader and editor; every other role has no entry. */
  function Relation(role: Option<string>): (r: Option<string>)
    ensures r.Some? ==> r.value == "owner" || r.value == "reader" || r.value == "editor"
  {
    match role
    case None => None
    case Some(g) =>
      if g == "owner" then Some("owner")
      else if g == "reader" then Some("reader")
      else if g == "writer" then Some("editor")
      else None
  }

  /** Only the three mapped roles get a relation, and different Drive roles
      never share one: the mapping keeps every distinction it makes. */
  lemma RelationInjective(a: string, b: string)
    requires Relation(Some(a)).Some? && Relation(Some(a)) == Relation(Some(b))
    ensures a == b && (a == "owner" || a == "reader" || a == "writer")
  {
  }

  /** The tuple pushed for permission `p` on document `doc`. */
  function TupleFor(doc: AiRoute.Doc, p: Permission): Tuple
  {
    Tuple("user", p.emailAddress, Relation(p.role), "file", doc.id)
  }

  /** The tuples of one document, one per permission, in list order. */
  function DocTuples(doc: AiRoute.Doc, perms: seq<Permission>): seq<Tuple>
  {
    seq(|perms|, j requires 0 <= j < |perms| => TupleFor(doc, perms[j]))
  }

  /** The tuples of all documents, document by document; `perms[d]` is the
      permission list of `docs[d]`. */
  function AllTuples(docs: seq<AiRoute.Doc>, perms: seq<seq<Permission>>): seq<Tuple>
    requires |perms| == |docs|
  {
    if |docs| == 0 then []
    else
      var n := |docs| - 1;
      AllTuples(docs[..n], perms[..n]) + DocTuples(docs[n], perms[n])
  }

  /** The number of permissions over all documents. */
  function Total(perms: seq<seq<Permission>>): nat
  {
    if |perms| == 0 then 0 else Total(perms[..|perms| - 1]) + |perms[|perms| - 1]|
  }

  /** The permissions of the documents before `d` and of `d` itself are
      part of the total. */
  lemma {:induction false} TotalMonotone(perms: seq<seq<Permission>>, d: nat)
    requires d < |perms|
    ensures Total(perms[..d]) + |perms[d]| <= Total(perms)
    decreases |perms|
  {
    var n := |perms| - 1;
    if d < n {
      assert perms[..n][..d] == perms[..d];
      TotalMonotone(perms[..n], d);
    } else {
      assert perms[..n] == perms[..d];
    }
  }

  /** As many tuples as permissions: the total is the sum of the lists' lengths. */
  lemma {:induction false} AllTuplesLength(docs: seq<AiRoute.Doc>, perms: seq<seq<Permission>>)
    requires |perms| == |docs|
    ensures |AllTuples(docs, perms)| == Total(perms)
    decreases |docs|
  {
    if |docs| > 0 {
      var n := |docs| - 1;
      AllTuplesLength(docs[..n], perms[..n]);
    }
  }

  /** The tuple for permission `j` of document `d` sits at position
      `Total(perms[..d]) + j`: exactly one tuple per (document, permission)
      pair, ordered by document and then by permission. */
  lemma {:induction false} AllTuplesIndex(docs: seq<AiRoute.Doc>, perms: seq<seq<Permission>>, d: nat, j: nat)
    requires |perms| == |docs| && d < |docs| && j < |perms[d]|
    ensures Total(perms[..d]) + j < |AllTuples(docs, perms)|
    ensures AllTuples(docs, perms)[Total(perms[..d]) + j] == TupleFor(docs[d], perms[d][j])
    decreases |docs|
  {
    var n := |docs| - 1;
    AllTuplesLength(docs, perms);
    TotalMonotone(perms, d);
    AllTuplesLength(docs[..n], perms[..n]);
    if d < n {
      assert perms[..n][..d] == perms[..d];
      assert docs[..n][d] == docs[d] && perms[..n][d] == perms[d];
      AllTuplesIndex(docs[..n], perms[..n], d, j);
    } else {
      assert perms[..n] == perms[..d];
    }
  }

  /** How the script ended: no documents (exit 0 before any AuthZ call), a
      failure (a rejected retrieval or permission listing), or the one
      `tupleCreate` call with its tuples. */
  datatype ScriptEnd = NoDocuments | Failed | Created(tuples: seq<Tuple>)

  /** The file ids whose permissions were listed, in order, and the end. */
  datatype ScriptRun = ScriptRun(listed: seq<string>, end: ScriptEnd)

  /** The permission lists of the first `n` documents (`?? []`). */
  function ListsOf(list: nat -> Result<Option<seq<Permission>>>, n: nat): (ps: seq<seq<Permission>>)
    requires forall k :: 0 <= k < n ==> list(k).Ok?
    ensures |ps| == n
  {
    seq(n, k requires 0 <= k < n => list(k).value.GetOr([]))
  }

  /** The script: `retrieve` is the document retrieval and `list(i)` the
      reply to the i-th permission listing (`None`: no `permissions` field). */
  method Run(retrieve: Result<seq<AiRoute.Doc>>, list: nat -> Result<Option<seq<Permission>>>)
    returns (run: ScriptRun)
    ensures retrieve.Throw? ==> run == ScriptRun([], Failed)
    ensures retrieve == Ok([]) ==> run == ScriptRun([], NoDocuments)
    ensures run.end.NoDocuments? ==> retrieve == Ok([])
    ensures retrieve.Ok? ==>
              var docs := retrieve.value;
              |run.listed| <= |docs|
              && (forall k :: 0 <= k < |run.listed| ==> run.listed[k] == docs[k].id)
              && (run.end.Created? <==> |docs| > 0 && forall k :: 0 <= k < |docs| ==> list(k).Ok?)
              && (run.end.Created? ==>
                    |run.listed| == |docs| && run.end.tuples == AllTuples(docs, ListsOf(list, |docs|)))
  {
    if retrieve.Throw? {
      return ScriptRun([], Failed);
    }
    var docs := retrieve.value;
    if |docs| == 0 {
      return ScriptRun([], NoDocuments);
    }
    var tuples: seq<Tuple> := [];
    var listed: seq<string> := [];
    var i := 0;
    while i < |docs|
      invariant 0 <= i <= |docs|
      invariant forall k :: 0 <= k < i ==> list(k).Ok?
      invariant listed == seq(i, k requires 0 <= k < i => docs[k].id)
      invariant tuples == AllTuples(docs[..i], ListsOf(list, i))
    {
      listed := listed + [docs[i].id];
      match list(i)
      case Throw(_) =>
        return ScriptRun(listed, Failed);
      case Ok(reply) =>
        var permissions := reply.GetOr([]);
        var j := 0;
        while j < |permissions|
          invariant 0 <= j <= |permissions|
          invariant tuples == AllTuples(docs[..i], ListsOf(list, i)) + DocTuples(docs[i], permissions[..j])
        {
          tuples := tuples + [TupleFor(docs[i], permissions[j])];
          j := j + 1;
        }
        assert permissions[..j] == permissions;
        assert docs[..i + 1][..i] == docs[..i];
        assert ListsOf(list, i + 1)[..i] == ListsOf(list, i);
        i := i + 1;
    }
    assert docs[..i] == docs;
    return ScriptRun(listed, Created(tuples));
  }
}

=== FILE: chat_properties.dfy ===
/** What the submit handler promises, stated against reference definitions
    that do not follow the handler's control flow: the routes it calls in
    order, the condition under which the LLM is asked at all and what it is
    sent, the transcript it appends, and what a crash leaves behind. */
module ChatProperties {
  import opened Types
  import opened Json
  import opened Http
  import Proxy
  import opened ChatWindow

  // ------------------------------------------------------------ reference definitions

  function Routes(calls: seq<Call>): seq<string>
  {
    seq(|calls|, i requires 0 <= i < |calls| => Route(calls[i]))
  }

  function Kinds(ms: seq<ChatMessage>): seq<string>
  {
    seq(|ms|, i requires 0 <= i < |ms| => Kind(ms[i]))
  }

  /** The routes of a submission that gets past every halt, in order:
      prompt guard, data guard, chat, data guard, each guard if enabled. */
  function Plan(s: Settings): seq<string>
  {
    (if s.promptGuard then [Proxy.PromptRoute] else [])
    + (if s.dataGuard then [Proxy.DataRoute] else [])
    + [Proxy.AiRoute]
    + (if s.dataGuard then [Proxy.DataRoute] else [])
  }

  /** Prompt screening lets the prompt through: off, or it answered and
      detected nothing. */
  predicate ScreeningPasses(s: Settings, a: Answers)
  {
    !s.promptGuard || (a.screening.Screened? && !a.screening.detected)
  }

  /** Prompt redaction lets the prompt through: off, or it answered. */
  predicate RedactionPasses(s: Settings, a: Answers)
  {
    !s.dataGuard || a.inputRedaction.Redacted?
  }

  /** What the LLM is to be sent: the data guard's redacted prompt when the
      data guard is on, the prompt typed otherwise. */
  function LlmPrompt(s: Settings, a: Answers): Option<Json>
  {
    if !s.dataGuard then Some(JStr(s.userPrompt))
    else if a.inputRedaction.Redacted? then a.inputRedaction.text
    else None
  }

  /** The submission reaches the LLM call. */
  predicate ReachesLlm(s: Settings, a: Answers)
  {
    Accepts(s) && ScreeningPasses(s, a) && RedactionPasses(s, a) && Truthy(LlmPrompt(s, a))
  }

  /** The reply the transcript shows: the redacted reply when reply
      redaction answered, the LLM's reply otherwise. */
  function Shown(s: Settings, a: Answers): Option<Json>
    requires a.llm.Answered?
  {
    if s.dataGuard && a.outputRedaction.Redacted? then a.outputRedaction.text else a.llm.reply
  }

  /** The message types a completed submission appends, in order. */
  function Transcript(s: Settings, a: Answers): seq<string>
  {
    ["user_prompt"]
    + (if s.promptGuard then ["prompt_guard"] else [])
    + (if s.dataGuard then ["ai_guard"] else [])
    + ["llm_response"]
    + (if s.dataGuard && a.outputRedaction.Redacted? then ["ai_guard"] else [])
  }

  // ------------------------------------------------------------ the gates

  /** Signed out: the login dialog opens, nothing is called or appended. */
  lemma SignedOutOpensLogin(s: Settings, a: Answers)
    requires !s.authenticated
    ensures Submit(s, a).calls == [] && Submit(s, a).appended == [] && Submit(s, a).end == LoginOpened
  {
  }

  /** An empty prompt, a load in progress or a submission in progress: the
      submit does nothing. */
  lemma BusyOrEmptyIgnored(s: Settings, a: Answers)
    requires s.authenticated && (s.userPrompt == "" || s.loading || s.processing != "")
    ensures Submit(s, a) == Submission([], [], Ignored, s.processing)
  {
  }

  // ------------------------------------------------------------ the calls

  /** The calls follow the plan, stopping early only when the pipeline halts. */
  lemma CallsFollowPlan(s: Settings, a: Answers)
    requires Accepts(s)
    ensures var out := Submit(s, a);
            Routes(out.calls) <= Plan(s)
            && (out.end.Completed? || out.end.Crashed? ==> Routes(out.calls) == Plan(s))
  {
    CompletesIff(s, a);
    if ReachesLlm(s, a) {
      PlanWhenLlmReached(s, a);
    } else {
      PlanWhenLlmNotReached(s, a);
    }
  }

  /** The routes of the guard calls on the prompt. */
  function GuardRoutes(s: Settings): seq<string>
  {
    (if s.promptGuard then [Proxy.PromptRoute] else [])
    + (if s.dataGuard then [Proxy.DataRoute] else [])
  }

  /** Reaching the LLM, the routes are the whole plan, short of the reply
      redaction when the LLM did not answer. */
  lemma PlanWhenLlmReached(s: Settings, a: Answers)
    requires ReachesLlm(s, a)
    ensures Routes(Submit(s, a).calls) == GuardRoutes(s) + [Proxy.AiRoute]
              + (if s.dataGuard && a.llm.Answered? then [Proxy.DataRoute] else [])
  {
    var out := Submit(s, a);
    CallsWhenLlmReached(s, a);
    var tail := if s.dataGuard && a.llm.Answered? then [RedactReply(a.llm.reply)] else [];
    assert Routes(GuardCalls(s)) == GuardRoutes(s);
    assert out.calls == GuardCalls(s) + [AskLlm(LlmPrompt(s, a).value, s.authz)] + tail;
  }

  /** Not reaching the LLM, the routes are a prefix of the guards' routes. */
  lemma PlanWhenLlmNotReached(s: Settings, a: Answers)
    requires !ReachesLlm(s, a)
    ensures Routes(Submit(s, a).calls) <= GuardRoutes(s)
  {
    var out := Submit(s, a);
    CallsWhenLlmNotReached(s, a);
    assert Routes(GuardCalls(s)) == GuardRoutes(s);
    assert Routes(out.calls) == GuardRoutes(s)[..|out.calls|];
  }

  /** The guard calls made on the prompt before the LLM is asked. */
  function GuardCalls(s: Settings): seq<Call>
  {
    (if s.promptGuard then [ScreenPrompt(s.userPrompt)] else [])
    + (if s.dataGuard then [RedactPrompt(s.userPrompt)] else [])
  }

  /** A submission that reaches the LLM screens and redacts the prompt, asks
      the LLM once with the chosen prompt and the authz toggle, and, with the
      data guard on and an answer, redacts the reply. */
  lemma CallsWhenLlmReached(s: Settings, a: Answers)
    requires ReachesLlm(s, a)
    ensures Submit(s, a).calls ==
              GuardCalls(s) + [AskLlm(LlmPrompt(s, a).value, s.authz)]
              + (if s.dataGuard && a.llm.Answered? then [RedactReply(a.llm.reply)] else [])
  {
  }

  /** A submission that does not reach the LLM makes only guard calls on
      the prompt. */
  lemma CallsWhenLlmNotReached(s: Settings, a: Answers)
    requires !ReachesLlm(s, a)
    ensures Submit(s, a).calls <= GuardCalls(s)
  {
  }

  /** The LLM is asked exactly when the screening and redaction let the
      prompt through and what would be sent is truthy; it is then asked
      once, with that prompt and the authz toggle, and it is the
      prompt typed only when the data guard is off. */
  lemma {:induction false} LlmCalledOnlyWhenSafe(s: Settings, a: Answers)
    ensures var out := Submit(s, a);
            ((exists c :: c in out.calls && c.AskLlm?) <==> ReachesLlm(s, a))
            && forall c :: c in out.calls && c.AskLlm? ==>
                 Some(c.message) == LlmPrompt(s, a) && c.authz == s.authz
  {
    var out := Submit(s, a);
    var g := GuardCalls(s);
    assert forall c :: c in g ==> !c.AskLlm?;
    if ReachesLlm(s, a) {
      CallsWhenLlmReached(s, a);
      var ask := AskLlm(LlmPrompt(s, a).value, s.authz);
      var tail := if s.dataGuard && a.llm.Answered? then [RedactReply(a.llm.reply)] else [];
      assert out.calls == g + [ask] + tail;
      assert ask in out.calls;
      forall c | c in out.calls && c.AskLlm?
        ensures c == ask
      {
        assert c in g || c == ask || c in tail;
      }
    } else {
      CallsWhenLlmNotReached(s, a);
      forall c | c in out.calls
        ensures !c.AskLlm?
      {
        var i :| 0 <= i < |out.calls| && out.calls[i] == c;
        assert c == g[i];
      }
    }
  }

  /** With the prompt guard on, a detection halts as suspicious and a failed
      or unreadable screening as a guard failure; the screening call is the
      only call and the guard's response, when there is one, follows the
      prompt in the transcript. */
  lemma ScreeningHalts(s: Settings, a: Answers)
    requires Accepts(s) && s.promptGuard && !ScreeningPasses(s, a)
    ensures var out := Submit(s, a);
            out.calls == [ScreenPrompt(s.userPrompt)] && out.processing == ""
            && out.end == Halted(if a.screening.Screened? then SuspiciousPrompt else PromptGuardError)
            && out.appended == [UserPrompt(s.userPrompt)]
                               + (if a.screening.ScreenFailed? then [] else [PromptGuardReport(a.screening.response)])
  {
  }

  /** With the data guard on, a failed prompt redaction halts before the LLM
      call with the guard-failure message. */
  lemma RedactionFailureHalts(s: Settings, a: Answers)
    requires Accepts(s) && ScreeningPasses(s, a) && s.dataGuard && a.inputRedaction.RedactionFailed?
    ensures var out := Submit(s, a);
            Routes(out.calls) == (if s.promptGuard then [Proxy.PromptRoute] else []) + [Proxy.DataRoute]
            && out.end == Halted(AiGuardError)
  {
  }

  /** A falsy prompt after redaction halts as suspicious, before the LLM. */
  lemma EmptyPromptHalts(s: Settings, a: Answers)
    requires Accepts(s) && ScreeningPasses(s, a) && RedactionPasses(s, a) && !Truthy(LlmPrompt(s, a))
    ensures var out := Submit(s, a);
            out.end == Halted(SuspiciousPrompt) && Routes(out.calls) == Plan(s)[..|out.calls|]
            && |out.calls| == (if s.promptGuard then 1 else 0) + (if s.dataGuard then 1 else 0)
  {
  }

  /** A failed LLM call halts with the LLM-failure message; no reply is
      appended. */
  lemma LlmFailureHalts(s: Settings, a: Answers)
    requires ReachesLlm(s, a) && a.llm.NoAnswer?
    ensures var out := Submit(s, a);
            out.end == Halted(LlmError) && out.calls[|out.calls| - 1] == AskLlm(LlmPrompt(s, a).value, s.authz)
            && forall m :: m in out.appended ==> !m.LlmResponse?
  {
  }

  // ------------------------------------------------------------ the transcript

  /** A submission that ran ends with the reply appended exactly when the
      LLM answered and the reply shown is a value `hashCode` accepts. */
  lemma CompletesIff(s: Settings, a: Answers)
    requires Accepts(s)
    ensures Submit(s, a).end.Completed? <==> ReachesLlm(s, a) && a.llm.Answered? && Hashable(Shown(s, a))
    ensures Submit(s, a).end.Crashed? <==> ReachesLlm(s, a) && a.llm.Answered? && !Hashable(Shown(s, a))
  {
  }

  /** The reports on the prompt: the prompt guard's response, then the
      data guard's, each when its guard is on. */
  function PromptReports(s: Settings, a: Answers): seq<ChatMessage>
    requires ReachesLlm(s, a)
  {
    (if s.promptGuard then [PromptGuardReport(a.screening.response)] else [])
    + (if s.dataGuard then [AiGuardReport(a.inputRedaction.response, a.inputRedaction.findings)] else [])
  }

  /** The report on the reply, when reply redaction answered. */
  function ReplyReports(s: Settings, a: Answers): seq<ChatMessage>
  {
    if s.dataGuard && a.outputRedaction.Redacted? then
      [AiGuardReport(a.outputRedaction.response, a.outputRedaction.findings)]
    else []
  }

  /** What a completed submission appends. */
  lemma AppendedWhenCompleted(s: Settings, a: Answers)
    requires Submit(s, a).end.Completed?
    ensures ReachesLlm(s, a) && a.llm.Answered?
    ensures Submit(s, a).appended ==
              [UserPrompt(s.userPrompt)] + PromptReports(s, a) + [LlmResponse(Shown(s, a))] + ReplyReports(s, a)
    ensures Submit(s, a).end.shown.Some? <==> s.dataGuard && a.outputRedaction.RedactionFailed?
    ensures Submit(s, a).end.shown.Some? ==> Submit(s, a).end.shown == Some(AiGuardError)
  {
  }

  /** On completion the transcript gains the prompt, the guards' reports on
      it, the reply shown, then the reply guard's report, in that order,
      every one with a key; the only error that can be shown is the reply
      guard's failure, and then the unredacted reply is the last message. */
  lemma {:induction false} CompletedTranscript(s: Settings, a: Answers, stamp: string)
    requires Submit(s, a).end.Completed?
    ensures var out := Submit(s, a);
            a.llm.Answered?
            && Kinds(out.appended) == Transcript(s, a)
            && out.appended[0] == UserPrompt(s.userPrompt)
            && LlmResponse(Shown(s, a)) in out.appended
            && (forall m :: m in out.appended ==> Key(m, stamp).Ok?)
            && (out.end.shown.Some? <==> s.dataGuard && a.outputRedaction.RedactionFailed?)
            && (out.end.shown.Some? ==>
                  out.end.shown == Some(AiGuardError) && Shown(s, a) == a.llm.reply
                  && out.appended[|out.appended| - 1] == LlmResponse(a.llm.reply))
  {
    var out := Submit(s, a);
    AppendedWhenCompleted(s, a);
    var pre := [UserPrompt(s.userPrompt)] + PromptReports(s, a);
    var post := ReplyReports(s, a);
    assert out.appended == pre + [LlmResponse(Shown(s, a))] + post;
    assert Kinds(pre) == ["user_prompt"] + (if s.promptGuard then ["prompt_guard"] else [])
                         + (if s.dataGuard then ["ai_guard"] else []);
    assert Kinds(post) == (if s.dataGuard && a.outputRedaction.Redacted? then ["ai_guard"] else []);
    assert Kinds(out.appended) == Kinds(pre) + ["llm_response"] + Kinds(post);
    assert out.appended[|pre|] == LlmResponse(Shown(s, a));
    CompletedKeys(s, a, stamp);
  }

  /** Every message a completed submission appends has a key. */
  lemma CompletedKeys(s: Settings, a: Answers, stamp: string)
    requires Submit(s, a).end.Completed?
    ensures forall m :: m in Submit(s, a).appended ==> Key(m, stamp).Ok?
  {
    var out := Submit(s, a);
    AppendedWhenCompleted(s, a);
    var pre := [UserPrompt(s.userPrompt)] + PromptReports(s, a);
    var post := ReplyReports(s, a);
    assert out.appended == pre + [LlmResponse(Shown(s, a))] + post;
    forall m | m in out.appended
      ensures Key(m, stamp).Ok?
    {
      assert m in pre || m == LlmResponse(Shown(s, a)) || m in post;
    }
  }

  // ------------------------------------------------------------ crashes

  /** A crash (the reply shown is not hashable) leaves `processing` set,
      unless reply redaction failed and already cleared it; with it set,
      every later submission is ignored. */
  lemma CrashLeavesChatBusy(s: Settings, a: Answers, next: Answers)
    requires Submit(s, a).end.Crashed?
    ensures var out := Submit(s, a);
            (out.processing == "" <==> s.dataGuard && a.outputRedaction.RedactionFailed?)
            && (out.processing != "" ==>
                  Submit(After(s, out), next) == Submission([], [], Ignored, out.processing))
  {
  }

  /** A halt clears `processing`, so the next submission is not blocked by it. */
  lemma HaltReleasesChat(s: Settings, a: Answers)
    requires Submit(s, a).end.Halted?
    ensures After(s, Submit(s, a)).processing == ""
    ensures forall m :: m in Submit(s, a).appended ==> !m.LlmResponse?
  {
  }

  // ------------------------------------------------------------ the requests

  /** The guard calls on the prompt carry the prompt typed. */
  lemma GuardCallsCarryPrompt(s: Settings, a: Answers)
    ensures forall c :: c in Submit(s, a).calls && (c.ScreenPrompt? || c.RedactPrompt?) ==>
              c.prompt == s.userPrompt
  {
    var out := Submit(s, a);
    if ReachesLlm(s, a) {
      CallsWhenLlmReached(s, a);
    } else {
      CallsWhenLlmNotReached(s, a);
      forall c | c in out.calls
        ensures c in GuardCalls(s)
      {
        var i :| 0 <= i < |out.calls| && out.calls[i] == c;
        assert c == GuardCalls(s)[i];
      }
    }
  }

  /** What the requests of `handleSubmit` carry: the chat request sends the
      data guard's `result.redacted_prompt` when the data guard is on and
      the prompt typed otherwise, and prompt redaction is sent the prompt
      typed. */
  lemma {:induction false} RequestsCarryPrompt(s: Settings, r: Replies)
    ensures var out := HandleSubmit(s, r);
            forall c :: c in out.calls ==>
              var body := Some(Send(s.token, c, ReplyTo(r, c)).request.body);
              (c.AskLlm? ==>
                 OptMember(body, "userPrompt") ==
                   (if s.dataGuard then OptMember(OptMember(Proxy.Received(r.inputGuard), "result"), "redacted_prompt")
                    else Some(JStr(s.userPrompt))))
              && (c.RedactPrompt? ==> OptMember(body, "text") == Some(JStr(s.userPrompt)))
  {
    var a := Read(r);
    var out := HandleSubmit(s, r);
    assert out == Submit(s, a);
    LlmCalledOnlyWhenSafe(s, a);
    GuardCallsCarryPrompt(s, a);
    forall c | c in out.calls
      ensures var body := Some(Send(s.token, c, ReplyTo(r, c)).request.body);
              (c.AskLlm? ==>
                 OptMember(body, "userPrompt") ==
                   (if s.dataGuard then OptMember(OptMember(Proxy.Received(r.inputGuard), "result"), "redacted_prompt")
                    else Some(JStr(s.userPrompt))))
              && (c.RedactPrompt? ==> OptMember(body, "text") == Some(JStr(s.userPrompt)))
    {
      if c.AskLlm? {
        assert Some(c.message) == LlmPrompt(s, a);
        if s.dataGuard {
          assert a.inputRedaction.Redacted?;
          assert Proxy.Received(r.inputGuard) == Some(a.inputRedaction.response);
        }
      }
    }
  }
}

=== FILE: chat_utils.dfy ===
/** The chat window's four service calls and the exact bodies they send:
    the chat request to the LLM route, the prompt-guard screening request and
    the two data-guard redaction requests (one recipe for the prompt, one for
    the reply). */
module ChatUtils {
  import opened Types
  import opened Json
  import opened Http
  import Proxy

  const InputRecipe := "pangea_prompt_guard"
  const OutputRecipe := "pangea_llm_response_guard"

  /** `{authz, userPrompt: message}`, `authz` defaulting to true when not passed. */
  function ChatBody(message: Json, authz: Option<bool>): Json
  {
    JObj([Field("authz", JBool(authz.GetOr(true))), Field("userPrompt", message)])
  }

  /** `{messages: [{content: userPrompt, role: "user"}]}`. */
  function PromptGuardBody(userPrompt: string): Json
  {
    JObj([Field("messages", JArr([JObj([Field("content", JStr(userPrompt)), Field("role", JStr("user"))])]))])
  }

  /** `{recipe, text}`; `JSON.stringify` drops `text` when it is `undefined`. */
  function GuardBody(recipe: string, text: Option<Json>): Json
  {
    JObj([Field("recipe", JStr(recipe))] + (if text.Some? then [Field("text", text.value)] else []))
  }

  lemma GuardBodyFields(recipe: string, text: Option<Json>)
    ensures OptMember(Some(GuardBody(recipe, text)), "recipe") == Some(JStr(recipe))
    ensures OptMember(Some(GuardBody(recipe, text)), "text") == text
  {
    if text.Some? {
      LookupPair(Field("recipe", JStr(recipe)), Field("text", text.value), "recipe");
      LookupPair(Field("recipe", JStr(recipe)), Field("text", text.value), "text");
      assert GuardBody(recipe, text).fields == [Field("recipe", JStr(recipe)), Field("text", text.value)];
    } else {
      assert GuardBody(recipe, text).fields == [Field("recipe", JStr(recipe))];
      assert [Field("recipe", JStr(recipe))][1..] == [];
    }
  }

  /** `sendUserMessage(token, message, authz)`: the chat route receives the
      message as `userPrompt` and the flag as `authz` (true by default). */
  function SendUserMessage(token: string, message: Json, authz: Option<bool>, reply: FetchOutcome)
    : (run: Proxy.ProxyRun)
    ensures run.request.url == Proxy.AiRoute && run.request.authorization == "Bearer " + token
    ensures OptMember(Some(run.request.body), "userPrompt") == Some(message)
    ensures OptMember(Some(run.request.body), "authz") == Some(JBool(authz.None? || authz.value))
    ensures run.result == Proxy.Settle(reply)
  {
    LookupPair(Field("authz", JBool(authz.GetOr(true))), Field("userPrompt", message), "authz");
    LookupPair(Field("authz", JBool(authz.GetOr(true))), Field("userPrompt", message), "userPrompt");
    Proxy.AiProxyRequest(token, ChatBody(message, authz), reply)
  }

  /** `callPromptGuard(token, userPrompt)`: one user message holding the prompt. */
  function CallPromptGuard(token: string, userPrompt: string, reply: FetchOutcome): (run: Proxy.ProxyRun)
    ensures run.request.url == Proxy.PromptRoute && run.request.authorization == "Bearer " + token
    ensures var messages := OptMember(Some(run.request.body), "messages");
            messages.Some? && messages.value.JArr? && |messages.value.items| == 1
            && OptMember(Some(messages.value.items[0]), "content") == Some(JStr(userPrompt))
            && OptMember(Some(messages.value.items[0]), "role") == Some(JStr("user"))
    ensures run.result == Proxy.Settle(reply)
  {
    LookupPair(Field("content", JStr(userPrompt)), Field("role", JStr("user")), "content");
    LookupPair(Field("content", JStr(userPrompt)), Field("role", JStr("user")), "role");
    Proxy.PromptGuardProxyRequest(token, PromptGuardBody(userPrompt), reply)
  }

  /** `callInputDataGuard(token, userPrompt)`: the prompt-redaction recipe on the prompt. */
  function CallInputDataGuard(token: string, userPrompt: string, reply: FetchOutcome): (run: Proxy.ProxyRun)
    ensures run.request.url == Proxy.DataRoute && run.request.authorization == "Bearer " + token
    ensures OptMember(Some(run.request.body), "recipe") == Some(JStr(InputRecipe))
    ensures OptMember(Some(run.request.body), "text") == Some(JStr(userPrompt))
    ensures run.result == Proxy.Settle(reply)
  {
    GuardBodyFields(InputRecipe, Some(JStr(userPrompt)));
    Proxy.DataGuardProxyRequest(token, GuardBody(InputRecipe, Some(JStr(userPrompt))), reply)
  }

  /** `callResponseDataGuard(token, llmResponse)`: the response-redaction
      recipe on the reply, which is sent without `text` when `undefined`. */
  function CallResponseDataGuard(token: string, llmResponse: Option<Json>, reply: FetchOutcome)
    : (run: Proxy.ProxyRun)
    ensures run.request.url == Proxy.DataRoute && run.request.authorization == "Bearer " + token
    ensures OptMember(Some(run.request.body), "recipe") == Some(JStr(OutputRecipe))
    ensures OptMember(Some(run.request.body), "text") == llmResponse
    ensures run.result == Proxy.Settle(reply)
  {
    GuardBodyFields(OutputRecipe, llmResponse);
    Proxy.DataGuardProxyRequest(token, GuardBody(OutputRecipe, llmResponse), reply)
  }
}

=== FILE: chat_window.dfy ===
/** The chat window's submit handler, `handleSubmit`: a login gate, an
    empty/busy gate, then the guard pipeline — prompt screening, prompt
    redaction, an empty-prompt halt, the LLM call and reply redaction —
    each stage optional where a toggle says so, and finally the transcript
    update.

    The handler is modelled in two layers. `Submit` is the pipeline itself:
    it decides from the toggles and from what each service answered (an
    `Answers` value) which calls are made, which messages are appended and
    how the submission ends. `HandleSubmit` feeds it the answers read off
    the four proxy replies, exactly as the handler reads them. A message's
    `hash` key, which needs the `Date.now()` reading, is computed from the
    message by `Key`. */
module ChatWindow {
  import opened Types
  import opened Json
  import opened Http
  import Hash
  import Proxy
  import ChatUtils

  /** A transcript entry, by what it is made from: the prompt typed; the
      prompt guard's response (shown as its `JSON.stringify`); a data-guard
      response with its `result.findings`; the reply shown (`output`). */
  datatype ChatMessage =
    | UserPrompt(input: string)
    | PromptGuardReport(response: Json)
    | AiGuardReport(response: Json, findings: Option<Json>)
    | LlmResponse(output: Option<Json>)

  /** What `handleSubmit` reads: the session, the chat state and the three
      toggles. `token` is `user?.active_token?.token || ""`. */
  datatype Settings = Settings(authenticated: bool, loading: bool, processing: string, userPrompt: string,
                               token: string, promptGuard: bool, dataGuard: bool, authz: bool)

  /** A call the handler makes, with what it sends. */
  datatype Call =
    | ScreenPrompt(prompt: string)              // callPromptGuard(token, userPrompt)
    | RedactPrompt(prompt: string)              // callInputDataGuard(token, userPrompt)
    | AskLlm(message: Json, authz: bool)        // sendUserMessage(token, llmUserPrompt, authzEnabled)
    | RedactReply(reply: Option<Json>)          // callResponseDataGuard(token, llmResponse)

  /** How a submission ends: the login dialog opens; nothing happens; the
      pipeline halts with an error shown; the reply is appended (with the
      error shown when reply redaction failed); or an exception escapes the
      handler (after the error shown, if any). */
  datatype End =
    | LoginOpened
    | Ignored
    | Halted(error: string)
    | Completed(shown: Option<string>)
    | Crashed(shown: Option<string>)

  /** One submission: the calls made, in order, the messages appended to the
      transcript, in order, how it ended, and the value of `processing`
      afterwards (non-empty means later submits are ignored). */
  datatype Submission = Submission(calls: seq<Call>, appended: seq<ChatMessage>, end: End, processing: string)

  /** The pipeline started: the submission was neither redirected to the
      login dialog nor ignored. */
  predicate Ran(e: End)
  {
    e.Halted? || e.Completed? || e.Crashed?
  }

  const SuspiciousPrompt := "Processing halted: suspicious prompt"
  const PromptGuardError := "Prompt Guard call failed, please try again"
  const AiGuardError := "AI Guard call failed, please try again"
  const LlmError := "LLM call failed, please try again"

  const WaitingForLlm := "Waiting for LLM response"
  const CheckingReply := "Checking LLM response with AI Guard"

  // ------------------------------------------------------------ what the services answered

  /** The prompt guard's answer as the handler reads it: the call failed;
      it answered but `result.detected` could not be read; or it answered
      and `detected` is the truthiness of `result.detected`. */
  datatype Screening =
    | ScreenFailed
    | ScreenUnreadable(response: Json)
    | Screened(response: Json, detected: bool)

  /** A data guard's answer as the handler reads it: the call failed or its
      `result` could not be read; or the response with its
      `result.findings` and `result.redacted_prompt`. */
  datatype Redaction =
    | RedactionFailed
    | Redacted(response: Json, findings: Option<Json>, text: Option<Json>)

  /** The chat route's answer as the handler reads it: the call failed or
      the response allows no property access; or `response.reply`. */
  datatype LlmAnswer =
    | NoAnswer
    | Answered(reply: Option<Json>)

  /** What each service answered; an answer is used only if its call is made. */
  datatype Answers = Answers(screening: Screening, inputRedaction: Redaction, llm: LlmAnswer,
                             outputRedaction: Redaction)

  /** `promptResp.result.detected` on the settled prompt-guard promise. */
  function ReadScreening(settled: Result<Json>): (g: Screening)
    ensures g.ScreenFailed? <==> settled.Throw?
    ensures !g.ScreenFailed? ==> settled == Ok(g.response)
    ensures g.ScreenUnreadable? <==> settled.Ok? && !Accessible(OptMember(Some(settled.value), "result"))
    ensures g.Screened? ==> g.detected == Truthy(OptMember(OptMember(Some(g.response), "result"), "detected"))
  {
    match settled
    case Throw(_) => ScreenFailed
    case Ok(resp) =>
      match Member(Some(resp), "result")
      case Throw(_) => ScreenUnreadable(resp)
      case Ok(result) =>
        match Member(result, "detected")
        case Throw(_) => ScreenUnreadable(resp)
        case Ok(detected) => Screened(resp, Truthy(detected))
  }

  /** `resp.result.findings` and `resp.result.redacted_prompt` on a settled
      data-guard promise. */
  function ReadRedaction(settled: Result<Json>): (g: Redaction)
    ensures g.RedactionFailed? <==> settled.Throw? || !Accessible(OptMember(Some(settled.value), "result"))
    ensures g.Redacted? ==>
              settled == Ok(g.response)
              && g.findings == OptMember(OptMember(Some(g.response), "result"), "findings")
              && g.text == OptMember(OptMember(Some(g.response), "result"), "redacted_prompt")
  {
    match settled
    case Throw(_) => RedactionFailed
    case Ok(resp) =>
      match Member(Some(resp), "result")
      case Throw(_) => RedactionFailed
      case Ok(result) =>
        match Member(result, "findings")
        case Throw(_) => RedactionFailed
        case Ok(findings) => Redacted(resp, findings, Prop(result, "redacted_prompt"))
  }

  /** `llmResponseStruct.reply` on the settled chat promise. */
  function ReadLlm(settled: Result<Json>): (g: LlmAnswer)
    ensures g.NoAnswer? <==> settled.Throw? || settled.value.JNull?
    ensures g.Answered? ==> g.reply == OptMember(Some(settled.value), "reply")
  {
    match settled
    case Throw(_) => NoAnswer
    case Ok(resp) =>
      match Member(Some(resp), "reply")
      case Throw(_) => NoAnswer
      case Ok(reply) => Answered(reply)
  }

  /** The answers of the four proxy calls, each used only if its call is made. */
  datatype Replies = Replies(promptGuard: FetchOutcome, inputGuard: FetchOutcome,
                             llm: FetchOutcome, outputGuard: FetchOutcome)

  /** The answers the handler reads off the four proxy replies. */
  function Read(r: Replies): Answers
  {
    Answers(ReadScreening(Proxy.Settle(r.promptGuard)), ReadRedaction(Proxy.Settle(r.inputGuard)),
            ReadLlm(Proxy.Settle(r.llm)), ReadRedaction(Proxy.Settle(r.outputGuard)))
  }

  // ------------------------------------------------------------ the calls

  /** The route a call goes to. */
  function Route(c: Call): string
  {
    match c
    case ScreenPrompt(_) => Proxy.PromptRoute
    case RedactPrompt(_) => Proxy.DataRoute
    case AskLlm(_, _) => Proxy.AiRoute
    case RedactReply(_) => Proxy.DataRoute
  }

  /** The proxy call a `Call` stands for, answered by `reply`. */
  function Send(token: string, c: Call, reply: FetchOutcome): (run: Proxy.ProxyRun)
    ensures run.request.url == Route(c) && run.request.verb == "POST"
    ensures run.request.authorization == "Bearer " + token
    ensures run.result == Proxy.Settle(reply)
    ensures c.AskLlm? ==>
              OptMember(Some(run.request.body), "userPrompt") == Some(c.message)
              && OptMember(Some(run.request.body), "authz") == Some(JBool(c.authz))
    ensures c.RedactPrompt? ==>
              OptMember(Some(run.request.body), "recipe") == Some(JStr(ChatUtils.InputRecipe))
              && OptMember(Some(run.request.body), "text") == Some(JStr(c.prompt))
    ensures c.RedactReply? ==>
              OptMember(Some(run.request.body), "recipe") == Some(JStr(ChatUtils.OutputRecipe))
              && OptMember(Some(run.request.body), "text") == c.reply
  {
    match c
    case ScreenPrompt(p) => ChatUtils.CallPromptGuard(token, p, reply)
    case RedactPrompt(p) => ChatUtils.CallInputDataGuard(token, p, reply)
    case AskLlm(m, authz) => ChatUtils.SendUserMessage(token, m, Some(authz), reply)
    case RedactReply(t) => ChatUtils.CallResponseDataGuard(token, t, reply)
  }

  /** The reply that answers call `c`. */
  function ReplyTo(r: Replies, c: Call): FetchOutcome
  {
    match c
    case ScreenPrompt(_) => r.promptGuard
    case RedactPrompt(_) => r.inputGuard
    case AskLlm(_, _) => r.llm
    case RedactReply(_) => r.outputGuard
  }

  /** Each call's answer is read off the reply to that call. */
  lemma AnswersComeFromReplies(token: string, r: Replies, c: Call)
    ensures var settled := Send(token, c, ReplyTo(r, c)).result;
            (c.ScreenPrompt? ==> Read(r).screening == ReadScreening(settled))
            && (c.RedactPrompt? ==> Read(r).inputRedaction == ReadRedaction(settled))
            && (c.AskLlm? ==> Read(r).llm == ReadLlm(settled))
            && (c.RedactReply? ==> Read(r).outputRedaction == ReadRedaction(settled))
  {
  }

  // ------------------------------------------------------------ message keys

  /** `i < str.length` holds for some `i` on a non-string `str`: its
      `length` property is a positive number or `true`. */
  predicate PositiveLength(len: Option<Json>)
  {
    len.Some? && ((len.value.JNum? && len.value.n > 0) || len.value == JBool(true))
  }

  /** `hashCode(v)` does not throw: `v` is a string, or a value whose
      `length` is not positive so that the loop never reads `charCodeAt`. */
  predicate Hashable(v: Option<Json>)
  {
    match v
    case None => false
    case Some(j) =>
      match j
      case JNull => false
      case JStr(_) => true
      case JArr(items) => |items| == 0
      case JObj(fields) => !PositiveLength(Lookup(fields, "length"))
      case _ => true
  }

  /** `str.length` on the value `hashCode` is given: the number of code
      units of a string, the size of an array, an object's own `length`
      property, and `undefined` for numbers and booleans. */
  function LengthOf(j: Json): Option<Json>
  {
    match j
    case JStr(s) => Some(JNum(|Hash.Utf16(s)|))
    case JArr(items) => Some(JNum(|items|))
    case JObj(fields) => Lookup(fields, "length")
    case _ => None
  }

  /** The loop test `i < str.length` compares `i` with this number: a
      number is itself, `true` is 1, and every other value admits no
      iteration. This is exact for `undefined` and plain objects, which convert
      to NaN; numeric strings and arrays such as `[3]` convert through their
      string form in JavaScript and are not followed here. */
  function Bound(len: Option<Json>): int
  {
    match len
    case Some(JNum(n)) => n
    case Some(JBool(true)) => 1
    case _ => 0
  }

  /** `str.charCodeAt(i)`: a code unit of a string; every other value has no
      such method, so the call is a TypeError. */
  function CharCodeAt(j: Json, i: nat): Result<Hash.CodeUnit>
    requires j.JStr? ==> i < |Hash.Utf16(j.s)|
  {
    if j.JStr? then Ok(Hash.Utf16(j.s)[i]) else Throw("TypeError")
  }

  /** The `for` loop of `hashCode` from index `i` with `hash` so far. */
  function HashLoop(j: Json, i: nat, hash: int): Result<int>
    requires j.JStr? ==> i <= |Hash.Utf16(j.s)|
    decreases Bound(LengthOf(j)) - i
  {
    if i < Bound(LengthOf(j)) then
      match CharCodeAt(j, i)
      case Throw(e) => Throw(e)
      case Ok(c) => HashLoop(j, i + 1, Hash.Step(hash, c))
    else Ok(hash)
  }

  /** On a string the loop computes the hash state of its code units. */
  lemma {:induction false} StringLoop(s: string, i: nat)
    requires i <= |Hash.Utf16(s)|
    ensures HashLoop(JStr(s), i, Hash.HashState(Hash.Utf16(s)[..i])) == Ok(Hash.HashState(Hash.Utf16(s)))
    decreases |Hash.Utf16(s)| - i
  {
    var u := Hash.Utf16(s);
    if i < |u| {
      assert u[..i + 1][..i] == u[..i];
      StringLoop(s, i + 1);
    } else {
      assert u[..i] == u;
    }
  }

  /** The loop throws exactly on the values `Hashable` excludes; a string
      ends with its hash state, any other value with the initial 0. */
  lemma HashableLoop(j: Json)
    requires !j.JNull?
    ensures HashLoop(j, 0, 0).Ok? <==> Hashable(Some(j))
    ensures j.JStr? ==> HashLoop(j, 0, 0) == Ok(Hash.HashState(Hash.Utf16(j.s)))
    ensures !j.JStr? && HashLoop(j, 0, 0).Ok? ==> HashLoop(j, 0, 0).value == 0
  {
    if j.JStr? {
      assert Hash.Utf16(j.s)[..0] == [];
      StringLoop(j.s, 0);
    }
  }

  /** `hashCode(v)` on what the handler passes it: reading `str.length`
      of `undefined` or `null` is a TypeError, and otherwise the loop runs
      and its final `hash` is rendered. A value `hashCode` accepts that is
      not a string hashes like the empty string. */
  function HashOf(v: Option<Json>, stamp: string): (r: Result<string>)
    ensures r.Ok? <==> Hashable(v)
    ensures r.Ok? ==> r.value == Hash.HashCode(if v.value.JStr? then v.value.s else "", stamp)
  {
    if v.None? || v.value.JNull? then Throw("TypeError")
    else
      HashableLoop(v.value);
      match HashLoop(v.value, 0, 0)
      case Throw(e) => Throw(e)
      case Ok(hash) => Ok(Hash.KeyFor(hash, stamp))
  }

  /** The message's `hash` key: the hash of the prompt, of the service
      response's JSON text, or of the reply shown; `Throw` where `hashCode`
      throws. */
  function Key(m: ChatMessage, stamp: string): (r: Result<string>)
    ensures m.LlmResponse? ==> (r.Ok? <==> Hashable(m.output))
    ensures !m.LlmResponse? ==> r.Ok?
  {
    match m
    case UserPrompt(input) => Ok(Hash.HashCode(input, stamp))
    case PromptGuardReport(resp) => Ok(Hash.HashCode(Stringify(resp), stamp))
    case AiGuardReport(resp, _) => Ok(Hash.HashCode(Stringify(resp), stamp))
    case LlmResponse(output) => HashOf(output, stamp)
  }

  /** The message's `type`. */
  function Kind(m: ChatMessage): string
  {
    match m
    case UserPrompt(_) => "user_prompt"
    case PromptGuardReport(_) => "prompt_guard"
    case AiGuardReport(_, _) => "ai_guard"
    case LlmResponse(_) => "llm_response"
  }

  /** Two keys taken at the same time stamp are equal exactly when the
      texts have the same 32-bit hash: the key tells hash collisions only. */
  lemma SameStampKeys(s: string, t: string, stamp: string)
    ensures Hash.HashCode(s, stamp) == Hash.HashCode(t, stamp) <==> Hash.HashValue(s) == Hash.HashValue(t)
  {
    var k, l := Hash.HashCode(s, stamp), Hash.HashCode(t, stamp);
    if k == l {
      assert k[..7] == l[..7];
    }
  }

  // ------------------------------------------------------------ the pipeline

  /** The submission `rest` preceded by `calls` and `messages`. */
  function Prepend(calls: seq<Call>, messages: seq<ChatMessage>, rest: Submission): Submission
  {
    Submission(calls + rest.calls, messages + rest.appended, rest.end, rest.processing)
  }

  /** The last step: the reply message, then the reply guard's report;
      `hashCode` of a value it cannot hash throws before anything is
      appended, leaving `processing` as it was. */
  function Finish(output: Option<Json>, reports: seq<ChatMessage>, shown: Option<string>,
                  processing: string): Submission
  {
    if Hashable(output) then Submission([], [LlmResponse(output)] + reports, Completed(shown), "")
    else Submission([], [], Crashed(shown), processing)
  }

  /** Reply redaction, when the data guard is on: on success the redacted
      reply replaces the reply and the guard's report follows it; on
      failure the error is shown and the unredacted reply is still appended. */
  function ReplyStage(s: Settings, a: Answers, reply: Option<Json>): Submission
  {
    if !s.dataGuard then Finish(reply, [], None, WaitingForLlm)
    else
      Prepend([RedactReply(reply)], [],
        match a.outputRedaction
        case RedactionFailed => Finish(reply, [], Some(AiGuardError), "")
        case Redacted(resp, findings, text) => Finish(text, [AiGuardReport(resp, findings)], None, CheckingReply))
  }

  /** The empty-prompt halt and the LLM call with `prompt`. */
  function LlmStage(s: Settings, a: Answers, prompt: Option<Json>): Submission
  {
    if !Truthy(prompt) then Submission([], [], Halted(SuspiciousPrompt), "")
    else
      Prepend([AskLlm(prompt.value, s.authz)], [],
        match a.llm
        case NoAnswer => Submission([], [], Halted(LlmError), "")
        case Answered(reply) => ReplyStage(s, a, reply))
  }

  /** Prompt redaction, when the data guard is on: the LLM is sent
      `result.redacted_prompt` instead of the prompt; a failure halts before
      the LLM call. */
  function InputStage(s: Settings, a: Answers): Submission
  {
    if !s.dataGuard then LlmStage(s, a, Some(JStr(s.userPrompt)))
    else
      Prepend([RedactPrompt(s.userPrompt)], [],
        match a.inputRedaction
        case RedactionFailed => Submission([], [], Halted(AiGuardError), "")
        case Redacted(resp, findings, text) => Prepend([], [AiGuardReport(resp, findings)], LlmStage(s, a, text)))
  }

  /** Prompt screening, when the prompt guard is on: the guard's response is
      appended as soon as it arrives; a detection halts as suspicious, a
      failed call or an unreadable `result.detected` as a guard failure. */
  function ScreenStage(s: Settings, a: Answers): Submission
  {
    if !s.promptGuard then InputStage(s, a)
    else
      Prepend([ScreenPrompt(s.userPrompt)], [],
        match a.screening
        case ScreenFailed => Submission([], [], Halted(PromptGuardError), "")
        case ScreenUnreadable(resp) => Submission([], [PromptGuardReport(resp)], Halted(PromptGuardError), "")
        case Screened(resp, detected) =>
          if detected then Submission([], [PromptGuardReport(resp)], Halted(SuspiciousPrompt), "")
          else Prepend([], [PromptGuardReport(resp)], InputStage(s, a)))
  }

  /** The submit gates pass: signed in, a prompt, not loading, not busy. */
  predicate Accepts(s: Settings)
  {
    s.authenticated && s.userPrompt != "" && !s.loading && s.processing == ""
  }

  /** The handler's pipeline on the answers `a`. */
  function Submit(s: Settings, a: Answers): (out: Submission)
    ensures !s.authenticated ==> out == Submission([], [], LoginOpened, s.processing)
    ensures s.authenticated && !Accepts(s) ==> out == Submission([], [], Ignored, s.processing)
    ensures Accepts(s) ==> Ran(out.end) && |out.appended| >= 1 && out.appended[0] == UserPrompt(s.userPrompt)
    ensures out.end.Halted? || out.end.Completed? ==> out.processing == ""
  {
    if !s.authenticated then Submission([], [], LoginOpened, s.processing)
    else if s.userPrompt == "" || s.loading || s.processing != "" then Submission([], [], Ignored, s.processing)
    else Prepend([], [UserPrompt(s.userPrompt)], ScreenStage(s, a))
  }

  /** `handleSubmit()`, the services answering with `r`. A prompt guard
      that fails at the HTTP level halts with the guard failure before any
      report; one that reports a detection halts as suspicious after its
      report; a data guard that fails on the prompt halts before the LLM. */
  function HandleSubmit(s: Settings, r: Replies): (out: Submission)
    ensures Accepts(s) && s.promptGuard && Proxy.Received(r.promptGuard).None? ==>
              out == Submission([ScreenPrompt(s.userPrompt)], [UserPrompt(s.userPrompt)], Halted(PromptGuardError), "")
    ensures Accepts(s) && s.promptGuard && Proxy.Received(r.promptGuard).Some?
            && Truthy(OptMember(OptMember(Proxy.Received(r.promptGuard), "result"), "detected")) ==>
              var report := PromptGuardReport(Proxy.Received(r.promptGuard).value);
              out == Submission([ScreenPrompt(s.userPrompt)], [UserPrompt(s.userPrompt), report],
                                Halted(SuspiciousPrompt), "")
    ensures Accepts(s) && !s.promptGuard && s.dataGuard && Proxy.Received(r.inputGuard).None? ==>
              out == Submission([RedactPrompt(s.userPrompt)], [UserPrompt(s.userPrompt)], Halted(AiGuardError), "")
  {
    Submit(s, Read(r))
  }

  /** The settings the next submission sees: the new `processing`, and the
      prompt box cleared when the reply was appended. */
  function After(s: Settings, out: Submission): Settings
  {
    s.(processing := out.processing, userPrompt := if out.end.Completed? then "" else s.userPrompt)
  }
}

=== FILE: end_to_end.dfy ===
/** The chat window talking to the chat route: what the route reads from the
    client's request, and what the client makes of the route's response.

    The route as written answers `Response.json(llmReply)`, a bare JSON
    string (`AiRoute.BareReply`), while the client reads
    `llmResponseStruct.reply` from it. A string has no `reply` property, so
    the client's reply is `undefined`: with the data guard off
    `hashCode(undefined)` throws and the chat stays busy for good. The route
    answering `{reply: llmReply}` (`AiRoute.ReplyResponse`), as evidently
    intended, makes the client show the reply. */
module EndToEnd {
  import opened Types
  import opened Json
  import opened Http
  import Requests
  import Proxy
  import AiRoute
  import opened ChatWindow
  import opened ChatProperties

  // ------------------------------------------------------------ the request

  /** The route recovers the client's token from every request the chat
      window sends, provided the token holds no space. */
  lemma RouteReadsClientToken(token: string, c: Call, reply: FetchOutcome)
    requires ' ' !in token
    ensures Requests.ExtractToken(Some(Send(token, c, reply).request.authorization)) == token
  {
    Requests.BearerRoundTrip("Bearer", token);
    assert "Bearer" + " " + token == "Bearer " + token;
  }

  /** The chat request's body is read by the route as sent: authorization
      filtering is on exactly when the client's toggle is, and the prompt
      the chain is given is the message the client sent. */
  lemma RouteReadsChatBody(token: string, message: Json, authz: bool, reply: FetchOutcome)
    ensures var body := Send(token, AskLlm(message, authz), reply).request.body;
            (AiRoute.AuthzOn(body) <==> authz) && OptMember(Some(body), "userPrompt") == Some(message)
  {
  }

  // ------------------------------------------------------------ the response

  /** Whatever the route answers, short of a 403 or a rejection, is its
      response to the chain's reply, of the shape `answer` says. */
  lemma RouteAnswersReply(answer: AiRoute.Answer, req: Incoming, env: Requests.Env, svc: AiRoute.Services)
    requires AiRoute.Post(answer, req, env, svc).response.Ok?
    requires AiRoute.Post(answer, req, env, svc).response != Ok(Forbidden)
    ensures var run := AiRoute.Post(answer, req, env, svc);
            run.prompt.Some? && svc.chain(run.prompt.value).Ok?
            && run.response.value == AiRoute.Respond(answer, svc.chain(run.prompt.value).value)
  {
  }

  /** The text the chain answered a request with that the route served. */
  function ChainReply(answer: AiRoute.Answer, req: Incoming, env: Requests.Env, svc: AiRoute.Services): string
    requires AiRoute.Post(answer, req, env, svc).response.Ok?
    requires AiRoute.Post(answer, req, env, svc).response != Ok(Forbidden)
  {
    RouteAnswersReply(answer, req, env, svc);
    var run := AiRoute.Post(answer, req, env, svc);
    svc.chain(run.prompt.value).value
  }

  /** The client's reply to its chat request is the route's served response. */
  predicate RouteServed(answer: AiRoute.Answer, r: Replies, req: Incoming, env: Requests.Env,
                        svc: AiRoute.Services)
  {
    var run := AiRoute.Post(answer, req, env, svc);
    run.response.Ok? && run.response != Ok(Forbidden) && r.llm == Got(run.response.value)
  }

  // ------------------------------------------------------------ as written

  /** What the client reads from the route's bare-string response. */
  lemma BareReplyReadsUndefined(text: string)
    ensures ReadLlm(Proxy.Settle(Got(AiRoute.BareReply(text)))) == Answered(None)
  {
  }

  /** As written: the client reads the route's served response as an
      `undefined` reply. */
  lemma BareReplyServedUndefined(r: Replies, req: Incoming, env: Requests.Env, svc: AiRoute.Services)
    requires RouteServed(AiRoute.AsWritten, r, req, env, svc)
    ensures ReadLlm(Proxy.Settle(r.llm)) == Answered(None)
  {
    RouteAnswersReply(AiRoute.AsWritten, req, env, svc);
    BareReplyReadsUndefined(ChainReply(AiRoute.AsWritten, req, env, svc));
  }

  /** As written: with the data guard off, a submission that reaches the
      LLM and gets the route's response crashes in `hashCode`, shows no
      reply and leaves `processing` set, so every later submission is
      ignored. */
  lemma BareReplyLocksChat(s: Settings, r: Replies, req: Incoming, env: Requests.Env,
                           svc: AiRoute.Services, next: Answers)
    requires ReachesLlm(s, Read(r)) && !s.dataGuard && RouteServed(AiRoute.AsWritten, r, req, env, svc)
    ensures var out := HandleSubmit(s, r);
            out.end == Crashed(None) && out.processing == WaitingForLlm
            && (forall m :: m in out.appended ==> !m.LlmResponse?)
            && Submit(After(s, out), next) == Submission([], [], Ignored, WaitingForLlm)
  {
    BareReplyServedUndefined(r, req, env, svc);
    CompletesIff(s, Read(r));
    CrashLeavesChatBusy(s, Read(r), next);
  }

  /** As written: with the data guard on, the reply guard is sent no text. */
  lemma BareReplyRedactsNothing(s: Settings, r: Replies, req: Incoming, env: Requests.Env,
                                svc: AiRoute.Services)
    requires ReachesLlm(s, Read(r)) && s.dataGuard && RouteServed(AiRoute.AsWritten, r, req, env, svc)
    ensures HandleSubmit(s, r).calls[|HandleSubmit(s, r).calls| - 1] == RedactReply(None)
  {
    BareReplyServedUndefined(r, req, env, svc);
    CallsWhenLlmReached(s, Read(r));
  }

  // ------------------------------------------------------------ corrected

  /** With the corrected response, the client reads the chain's text as the
      reply. */
  lemma ClientReadsRouteReply(req: Incoming, env: Requests.Env, svc: AiRoute.Services)
    requires AiRoute.Post(AiRoute.Corrected, req, env, svc).response.Ok?
    requires AiRoute.Post(AiRoute.Corrected, req, env, svc).response != Ok(Forbidden)
    ensures var run := AiRoute.Post(AiRoute.Corrected, req, env, svc);
            ReadLlm(Proxy.Settle(Got(run.response.value)))
            == Answered(Some(JStr(ChainReply(AiRoute.Corrected, req, env, svc))))
  {
    RouteAnswersReply(AiRoute.Corrected, req, env, svc);
  }

  /** Corrected: with the data guard off, the chain's text is appended as the
      reply, the submission completes and the chat is free again. */
  lemma ReplyObjectCompletes(s: Settings, r: Replies, req: Incoming, env: Requests.Env,
                             svc: AiRoute.Services)
    requires ReachesLlm(s, Read(r)) && !s.dataGuard && RouteServed(AiRoute.Corrected, r, req, env, svc)
    ensures var out := HandleSubmit(s, r);
            out.end == Completed(None) && out.processing == ""
            && out.appended[|out.appended| - 1]
               == LlmResponse(Some(JStr(ChainReply(AiRoute.Corrected, req, env, svc))))
  {
    ClientReadsRouteReply(req, env, svc);
    CompletesIff(s, Read(r));
    AppendedWhenCompleted(s, Read(r));
  }

  /** Corrected: with the data guard on, the reply guard is sent the chain's
      text. */
  lemma ReplyObjectIsRedacted(s: Settings, r: Replies, req: Incoming, env: Requests.Env,
                              svc: AiRoute.Services)
    requires ReachesLlm(s, Read(r)) && s.dataGuard && RouteServed(AiRoute.Corrected, r, req, env, svc)
    ensures HandleSubmit(s, r).calls[|HandleSubmit(s, r).calls| - 1]
            == RedactReply(Some(JStr(ChainReply(AiRoute.Corrected, req, env, svc))))
  {
    ClientReadsRouteReply(req, env, svc);
    CallsWhenLlmReached(s, Read(r));
  }
}

=== FILE: hash.dfy ===
/** The chat window's message key, `hashCode(str)`: a 31-multiplier string
    hash over UTF-16 code units computed with JavaScript's mix of int32 shifts
    and double arithmetic, reduced to an unsigned 32-bit value by `>>> 0`,
    rendered in base 36, left-padded with '0' to at least 7 characters, and
    followed by the decimal `Date.now()` (here an opaque `stamp`). */
module Hash {

  const TwoTo32: int := 0x1_0000_0000
  const TwoTo31: int := 0x8000_0000

  /** A UTF-16 code unit: what `charCodeAt` returns. */
  type CodeUnit = x: int | 0 <= x < 0x1_0000

  /** The UTF-16 code units of a string: one per character of the Basic
      Multilingual Plane, a surrogate pair for every other character. */
  function Utf16(s: string): (u: seq<CodeUnit>)
    ensures |s| <= |u| <= 2 * |s|
  {
    if |s| == 0 then [] else Units(s[0]) + Utf16(s[1..])
  }

  function Units(c: char): (u: seq<CodeUnit>)
    ensures 1 <= |u| <= 2
  {
    var v := c as int;
    if v < 0x1_0000 then [v]
    else [0xD800 + (v - 0x1_0000) / 0x400, 0xDC00 + (v - 0x1_0000) % 0x400]
  }

  /** JavaScript's ToInt32 on an integral number: the representative of `x`
      modulo 2^32 in [-2^31, 2^31). */
  function ToInt32(x: int): (r: int)
    ensures -TwoTo31 <= r < TwoTo31
    ensures (x - r) % TwoTo32 == 0
  {
    x - TwoTo32 * ((x + TwoTo31) / TwoTo32)
  }

  /** One loop iteration `hash = (hash << 5) - hash + char`: the shift works
      on int32 values, the subtraction and addition on (here exact) numbers. */
  function Step(h: int, c: CodeUnit): int
  {
    ToInt32(ToInt32(h) * 32) - h + c
  }

  /** The value of `hash` after the loop has consumed `u`. */
  function HashState(u: seq<CodeUnit>): int
  {
    if |u| == 0 then 0 else Step(HashState(u[..|u| - 1]), u[|u| - 1])
  }

  function Pow(b: nat, e: nat): nat
  {
    if e == 0 then 1 else b * Pow(b, e - 1)
  }

  /** The polynomial hash Σ u[i]·31^(n-1-i), without any reduction. */
  function PolySum(u: seq<CodeUnit>): nat
  {
    if |u| == 0 then 0 else u[0] * Pow(31, |u| - 1) + PolySum(u[1..])
  }

  /** Appending a code unit is one Horner step of the polynomial. */
  lemma {:induction false} PolySumAppend(u: seq<CodeUnit>, c: CodeUnit)
    ensures PolySum(u + [c]) == 31 * PolySum(u) + c
    decreases |u|
  {
    if |u| == 0 {
      assert u + [c] == [c];
      assert PolySum([c]) == c * Pow(31, 0) + PolySum([]);
    } else {
      var v := u + [c];
      assert v[0] == u[0] && v[1..] == u[1..] + [c];
      PolySumAppend(u[1..], c);
      var p := Pow(31, |u| - 1);
      assert Pow(31, |u|) == 31 * p;
      assert u[0] * Pow(31, |u|) == 31 * (u[0] * p);
      assert PolySum(v) == u[0] * Pow(31, |u|) + PolySum(u[1..] + [c]);
    }
  }

  /** Adding a multiple of 2^32 does not change the residue. */
  lemma ModShift(y: int, j: int)
    ensures (y + TwoTo32 * j) % TwoTo32 == y % TwoTo32
  {
    var x := y + TwoTo32 * j;
    assert x == TwoTo32 * (y / TwoTo32 + j) + y % TwoTo32;
  }

  /** One loop iteration is one Horner step modulo 2^32: the int32 shift
      multiplies by 32 up to a multiple of 2^32. */
  lemma StepIsHorner(h: int, c: CodeUnit)
    ensures Step(h, c) == 31 * h + c
                          - TwoTo32 * (32 * ((h + TwoTo31) / TwoTo32)
                                       + (ToInt32(h) * 32 + TwoTo31) / TwoTo32)
  {
  }

  /** Modulo 2^32 the loop computes the polynomial hash, which `>>> 0` keeps. */
  lemma {:induction false} HashStateIsPolynomial(u: seq<CodeUnit>)
    ensures HashState(u) % TwoTo32 == PolySum(u) % TwoTo32
    decreases |u|
  {
    if |u| > 0 {
      var p := u[..|u| - 1];
      var c := u[|u| - 1];
      HashStateIsPolynomial(p);
      PolySumAppend(p, c);
      assert u == p + [c];
      var h := HashState(p);
      var sp := PolySum(p);
      StepIsHorner(h, c);
      var k := 32 * ((h + TwoTo31) / TwoTo32) + (ToInt32(h) * 32 + TwoTo31) / TwoTo32;
      var q := h / TwoTo32 - sp / TwoTo32;
      assert h == sp + TwoTo32 * q;
      assert Step(h, c) == 31 * sp + c + TwoTo32 * (31 * q - k);
      ModShift(31 * sp + c, 31 * q - k);
    }
  }

  /** The loop state grows by at most 2^31 + 2^16 per code unit. */
  lemma {:induction false} HashStateBound(u: seq<CodeUnit>)
    ensures -|u| * (TwoTo31 + 0x1_0000) <= HashState(u) <= |u| * (TwoTo31 + 0x1_0000)
    decreases |u|
  {
    if |u| > 0 {
      HashStateBound(u[..|u| - 1]);
    }
  }

  /** Hence for strings of up to 2^21 code units the loop state after every
      step is an integer below 2^53 in magnitude, which a double holds exactly: the
      unbounded-integer model above is then the JavaScript computation. */
  lemma HashStateExact(u: seq<CodeUnit>)
    requires |u| <= 0x20_0000
    ensures -0x20_0000_0000_0000 < HashState(u) < 0x20_0000_0000_0000
  {
    HashStateBound(u);
  }

  /** `hash >>> 0`, the unsigned value that gets rendered. */
  function HashValue(s: string): (r: nat)
    ensures r < TwoTo32
    ensures r == PolySum(Utf16(s)) % TwoTo32
  {
    HashStateIsPolynomial(Utf16(s));
    HashState(Utf16(s)) % TwoTo32
  }

  /** The digit for `d` in `Number.prototype.toString(36)`. */
  function Digit(d: nat): char
    requires d < 36
  {
    if d < 10 then ('0' as int + d) as char else ('a' as int + d - 10) as char
  }

  predicate IsDigit36(c: char)
  {
    '0' <= c <= '9' || 'a' <= c <= 'z'
  }

  function DigitValue(c: char): (d: nat)
    requires IsDigit36(c)
    ensures d < 36 && Digit(d) == c
  {
    if c <= '9' then c as int - '0' as int else c as int - 'a' as int + 10
  }

  /** `n.toString(36)`: most significant digit first, no leading zeros. */
  function Base36(n: nat): (r: string)
    ensures |r| >= 1
    ensures forall i :: 0 <= i < |r| ==> IsDigit36(r[i])
    decreases n
  {
    if n < 36 then [Digit(n)] else Base36(n / 36) + [Digit(n % 36)]
  }

  /** The number a base-36 digit string denotes (leading zeros allowed). */
  function FromBase36(s: string): nat
    requires forall i :: 0 <= i < |s| ==> IsDigit36(s[i])
  {
    if |s| == 0 then 0 else FromBase36(s[..|s| - 1]) * 36 + DigitValue(s[|s| - 1])
  }

  lemma {:induction false} Base36RoundTrip(n: nat)
    ensures FromBase36(Base36(n)) == n
    decreases n
  {
    var s := Base36(n);
    if n >= 36 {
      Base36RoundTrip(n / 36);
      assert s[..|s| - 1] == Base36(n / 36);
    }
  }

  /** A number below 36^k needs at most k base-36 digits. */
  lemma {:induction false} Base36Length(n: nat, k: nat)
    requires 1 <= k && n < Pow(36, k)
    ensures |Base36(n)| <= k
    decreases k
  {
    if n >= 36 {
      Base36Length(n / 36, k - 1);
    }
  }

  /** `s.padStart(len, fill)` with a one-character fill string. */
  function PadStart(s: string, len: nat, fill: char): (r: string)
    ensures |r| == if |s| >= len then |s| else len
    ensures r[|r| - |s|..] == s && forall i :: 0 <= i < |r| - |s| ==> r[i] == fill
  {
    if |s| >= len then s else seq(len - |s|, _ => fill) + s
  }

  lemma {:induction false} ZerosValue(z: nat)
    ensures FromBase36(seq(z, _ => '0')) == 0
    decreases z
  {
    if z > 0 {
      ZerosValue(z - 1);
      assert seq(z, _ => '0')[..z - 1] == seq(z - 1, _ => '0');
    }
  }

  /** Leading zeros do not change the value of a base-36 numeral. */
  lemma {:induction false} LeadingZeros(z: nat, s: string)
    requires forall i :: 0 <= i < |s| ==> IsDigit36(s[i])
    ensures FromBase36(seq(z, _ => '0') + s) == FromBase36(s)
    decreases |s|
  {
    var zs := seq(z, _ => '0');
    if |s| == 0 {
      ZerosValue(z);
      assert zs + s == zs;
    } else {
      var t := zs + s;
      assert t[..|t| - 1] == zs + s[..|s| - 1];
      assert t[|t| - 1] == s[|s| - 1];
      LeadingZeros(z, s[..|s| - 1]);
    }
  }

  /** `(hash >>> 0).toString(36).padStart(7, "0")` for the loop's final
      `hash`: exactly seven base-36 digits (2^32 < 36^7, so padding never
      leaves more), denoting `hash` reduced to an unsigned 32-bit value. */
  function Render(hash: int): (r: string)
    ensures |r| == 7
    ensures forall i :: 0 <= i < 7 ==> IsDigit36(r[i])
    ensures FromBase36(r) == hash % TwoTo32
  {
    var n := hash % TwoTo32;
    var b := Base36(n);
    assert Pow(36, 7) == 78364164096;
    Base36Length(n, 7);
    Base36RoundTrip(n);
    LeadingZeros(7 - |b|, b);
    PadStart(b, 7, '0')
  }

  /** The first seven characters of the key of a string: the digits of its
      unsigned hash value. */
  function HashPrefix(s: string): (r: string)
    ensures |r| == 7
    ensures forall i :: 0 <= i < 7 ==> IsDigit36(r[i])
    ensures FromBase36(r) == HashValue(s)
  {
    Render(HashState(Utf16(s)))
  }

  /** Two keys share their seven-digit prefix exactly when the strings hash
      to the same unsigned value. */
  lemma HashPrefixIdentifiesValue(s: string, t: string)
    ensures HashPrefix(s) == HashPrefix(t) <==> HashValue(s) == HashValue(t)
  {
  }

  /** A seven-character prefix followed by the stamp splits back into the two. */
  lemma KeySplits(p: string, stamp: string)
    requires |p| == 7
    ensures (p + stamp)[..7] == p && (p + stamp)[7..] == stamp
    ensures forall i :: 0 <= i < 7 ==> (p + stamp)[i] == p[i]
  {
  }

  /** The return value of `hashCode` once its loop ended with `hash`: the
      rendering followed by the `Date.now()` digits. */
  function KeyFor(hash: int, stamp: string): (r: string)
    ensures |r| == 7 + |stamp| && r[..7] == Render(hash) && r[7..] == stamp
  {
    KeySplits(Render(hash), stamp);
    Render(hash) + stamp
  }

  /** `hashCode(str)` on a string: seven base-36 digits denoting the
      unsigned hash, followed by the `Date.now()` digits. */
  function HashCode(s: string, stamp: string): (r: string)
    ensures |r| == 7 + |stamp| && r[7..] == stamp
    ensures forall i :: 0 <= i < 7 ==> IsDigit36(r[i])
    ensures FromBase36(r[..7]) == HashValue(s)
  {
    var r := KeyFor(HashState(Utf16(s)), stamp);
    assert forall i :: 0 <= i < 7 ==> r[i] == r[..7][i];
    r
  }
}

=== FILE: http.dfy ===
/** What the modelled code sees of HTTP: a response is a status code and a
    body that either parses as JSON or does not; a `fetch` either resolves
    with a response or rejects (network failure). */
module Http {
  import opened Types
  import opened Json

  /** `body` is `None` when the body is not valid JSON, so that
      `response.json()` rejects. */
  datatype HttpResponse = HttpResponse(status: int, body: Option<Json>)

  datatype FetchOutcome = NetworkError | Got(response: HttpResponse)

  /** The server side of one POST: its first reply, and the reply to the
      k-th follow-up GET of an asynchronous (202) request. */
  datatype Exchange = Exchange(first: FetchOutcome, poll: nat -> FetchOutcome)

  /** `await response.json()`. */
  function ParseBody(r: HttpResponse): (j: Result<Json>)
    ensures j.Ok? <==> r.body.Some?
    ensures j.Ok? ==> j.value == r.body.value
  {
    match r.body
    case None => Throw("SyntaxError")
    case Some(v) => Ok(v)
  }

  /** What an API route reads of its request: the Authorization header
      (`None` when absent) and the body, `None` when it is not valid JSON so
      that `request.json()` rejects. */
  datatype Incoming = Incoming(authorization: Option<string>, body: Option<Json>)

  /** `new Response("Forbidden", {status: 403})`: a plain-text body, which
      is not JSON. */
  const Forbidden := HttpResponse(403, None)
}

=== FILE: json.dfy ===
/** JSON values as the modelled TypeScript code sees them after `JSON.parse`
    (or before `JSON.stringify`), together with the few pieces of JavaScript
    semantics the code applies to them: property access (`v.key`, which
    throws on `null` and `undefined`), optional chaining (`v?.key`),
    truthiness, `String(v)` (template-literal interpolation) and
    `JSON.stringify`.

    `None` in an `Option<Json>` stands for JavaScript's `undefined`.
    Numbers are integers only. */
module Json {
  import opened Types
  import Text

  datatype Json =
    | JNull
    | JBool(b: bool)
    | JNum(n: int)
    | JStr(s: string)
    | JArr(items: seq<Json>)
    | JObj(fields: seq<Field>)

  /** One own property of an object, in insertion order. */
  datatype Field = Field(key: string, value: Json)

  /** The value of the property named `key`; `None` when there is none. */
  function Lookup(fields: seq<Field>, key: string): (r: Option<Json>)
    ensures r.None? <==> forall i :: 0 <= i < |fields| ==> fields[i].key != key
    ensures r.Some? ==> Field(key, r.value) in fields
  {
    if |fields| == 0 then None
    else if fields[0].key == key then Some(fields[0].value)
    else Lookup(fields[1..], key)
  }

  /** Reading a property of a two-property object literal. */
  lemma LookupPair(a: Field, b: Field, key: string)
    ensures Lookup([a, b], key) ==
            if a.key == key then Some(a.value) else if b.key == key then Some(b.value) else None
  {
    assert [a, b][1..] == [b];
    assert [b][1..] == [];
  }

  /** Property access on `v` does not throw: `v` is neither `undefined` nor `null`. */
  predicate Accessible(v: Option<Json>)
  {
    v.Some? && !v.value.JNull?
  }

  /** `v.key` on an accessible value: objects answer from their own
      properties, every other value has no property of the names used here. */
  function Prop(v: Option<Json>, key: string): Option<Json>
    requires Accessible(v)
  {
    match v.value
    case JObj(fields) => Lookup(fields, key)
    case _ => None
  }

  /** `v.key`, which throws a TypeError on `undefined` and `null`. */
  function Member(v: Option<Json>, key: string): (r: Result<Option<Json>>)
    ensures r.Ok? <==> Accessible(v)
    ensures r.Ok? ==> r.value == OptMember(v, key)
  {
    if Accessible(v) then Ok(Prop(v, key)) else Throw("TypeError")
  }

  /** `v?.key`: `undefined` instead of a TypeError. */
  function OptMember(v: Option<Json>, key: string): (r: Option<Json>)
    ensures r.Some? ==> v.Some? && v.value.JObj? && Lookup(v.value.fields, key) == r
  {
    if Accessible(v) then Prop(v, key) else None
  }

  /** JavaScript truthiness of a JSON value (there is no NaN among integers). */
  predicate Truthy(v: Option<Json>)
  {
    match v
    case None => false
    case Some(j) =>
      match j
      case JNull => false
      case JBool(b) => b
      case JNum(n) => n != 0
      case JStr(s) => s != ""
      case _ => true
  }

  /** The decimal rendering of an integer, with a leading '-' when negative. */
  function Decimal(n: int): string
  {
    if n < 0 then "-" + Digits(-n) else Digits(n)
  }

  function Digits(n: nat): (r: string)
    ensures |r| >= 1
  {
    if n < 10 then ["0123456789"[n]] else Digits(n / 10) + ["0123456789"[n % 10]]
  }

  /** `String(v)`, which is also what a template literal interpolates.
      Array elements that are `null` render as the empty string. */
  function ToJsString(v: Option<Json>): string
  {
    match v
    case None => "undefined"
    case Some(j) => Show(j)
  }

  function Show(j: Json): string
    decreases j
  {
    match j
    case JNull => "null"
    case JBool(b) => if b then "true" else "false"
    case JNum(n) => Decimal(n)
    case JStr(s) => s
    case JArr(items) =>
      Text.Join(seq(|items|, i requires 0 <= i < |items| =>
                      if items[i].JNull? then "" else Show(items[i])), ",")
    case JObj(_) => "[object Object]"
  }

  /** `JSON.stringify(v)`. */
  function Stringify(j: Json): string
    decreases j
  {
    match j
    case JNull => "null"
    case JBool(b) => if b then "true" else "false"
    case JNum(n) => Decimal(n)
    case JStr(s) => Quote(s)
    case JArr(items) =>
      "[" + Text.Join(seq(|items|, i requires 0 <= i < |items| => Stringify(items[i])), ",") + "]"
    case JObj(fields) =>
      "{" + Text.Join(seq(|fields|, i requires 0 <= i < |fields| =>
                            Quote(fields[i].key) + ":" + Stringify(fields[i].value)), ",") + "}"
  }

  /** A JSON string literal: quotes around the escaped characters. */
  function Quote(s: string): string
  {
    "\"" + Escape(s) + "\""
  }

  function Escape(s: string): string
  {
    if |s| == 0 then "" else EscapeChar(s[0]) + Escape(s[1..])
  }

  function EscapeChar(c: char): string
  {
    if c == '"' then "\\\""
    else if c == '\\' then "\\\\"
    else if c as int == 0x08 then "\\b"
    else if c as int == 0x0C then "\\f"
    else if c == '\n' then "\\n"
    else if c == '\r' then "\\r"
    else if c == '\t' then "\\t"
    else if (c as int) < 0x20 then
      "\\u00" + ["0123456789abcdef"[(c as int) / 16], "0123456789abcdef"[(c as int) % 16]]
    else [c]
  }
}

=== FILE: prompt_route.dfy ===
/** The prompt-guard API route (`POST /api/prompt`): authenticate the
    caller, forward the request body unchanged to the Prompt Guard service
    and pass its reply back, with status 200 on success and 400 otherwise. */
module PromptRoute {
  import opened Types
  import opened Json
  import opened Http
  import Requests

  const ServiceName := "prompt-guard"
  const ApiVersion := "v1beta"

  /** `${API_VERSION}/guard`. */
  const Endpoint := ApiVersion + "/guard"

  /** What one request did: the token validation, the forwarded POST if
      there was one, and the response (`Throw`: an unhandled rejection). */
  datatype PromptRun = PromptRun(validation: Requests.ValidateRun, forwarded: Option<Requests.PostRun>,
                                 response: Result<HttpResponse>)

  /** `POST(request)`; `authn` answers the token check and `guard` the
      forwarded call. */
  function Post(req: Incoming, env: Requests.Env, authn: Exchange, guard: Exchange): (run: PromptRun)
    ensures run.validation == Requests.ValidateToken(req.authorization, env, authn)
    ensures run.response == Ok(Forbidden) <==>
              run.validation.result.Ok?
              && !(run.validation.result.value.success && Truthy(run.validation.result.value.username))
    ensures run.response == Ok(Forbidden) || run.validation.result.Throw? ==> run.forwarded.None?
    ensures run.forwarded.Some? ==>
              req.body.Some?
              && run.forwarded.value.request
                 == Requests.OutboundRequest("POST", Requests.GetUrl(ServiceName, Endpoint, env),
                                             Requests.GetHeaders(false, env), req.body)
    ensures run.forwarded.Some? <==>
              run.validation.result.Ok? && run.validation.result.value.success
              && Truthy(run.validation.result.value.username) && req.body.Some?
    ensures run.forwarded.Some? ==>
              run.forwarded.value
              == Requests.PostRequest(Requests.GetUrl(ServiceName, Endpoint, env), req.body.value, false, env, guard)
    ensures run.forwarded.Some? && run.forwarded.value.outcome.Ok? ==> run.response.Ok?
    ensures run.forwarded.Some? && run.forwarded.value.outcome.Throw? ==> run.response.Throw?
    ensures run.response.Ok? && run.response != Ok(Forbidden) ==>
              run.forwarded.Some? && run.forwarded.value.outcome.Ok?
              && var posted := run.forwarded.value.outcome.value;
                 run.response.value == HttpResponse(if posted.success then 200 else 400, Some(posted.json))
                 && (run.response.value.status == 200 <==> Requests.IsSuccess(posted.json))
  {
    var v := Requests.ValidateToken(req.authorization, env, authn);
    match v.result
    case Throw(e) => PromptRun(v, None, Throw(e))
    case Ok(val) =>
      if !(val.success && Truthy(val.username)) then PromptRun(v, None, Ok(Forbidden))
      else
        match req.body
        case None => PromptRun(v, None, Throw("SyntaxError"))
        case Some(body) =>
          var post := Requests.PostRequest(Requests.GetUrl(ServiceName, Endpoint, env), body, false, env, guard);
          match post.outcome
          case Throw(e) => PromptRun(v, Some(post), Throw(e))
          case Ok(p) =>
            if p.success then PromptRun(v, Some(post), Ok(HttpResponse(200, Some(p.json))))
            else PromptRun(v, Some(post), Ok(HttpResponse(400, Some(p.json))))
  }

  /** The forwarded call goes to the Prompt Guard host, at `v1beta/guard`. */
  lemma TargetIsPromptGuard(env: Requests.Env)
    ensures Requests.ServiceOf(Requests.GetUrl(ServiceName, Endpoint, env)) == Some("prompt-guard")
    ensures var url := Requests.GetUrl(ServiceName, Endpoint, env);
            url[|url| - |"/v1beta/guard"|..] == "/v1beta/guard"
  {
    Requests.GetUrlNamesService(ServiceName, Endpoint, env);
  }
}

=== FILE: proxy.dfy ===
/** The browser-side proxy: every service call of the chat window is a POST
    to the app's own API route `/api/{service}`, authorised with the user's
    token, and is accepted only with a 2xx status. */
module Proxy {
  import opened Types
  import opened Json
  import opened Http

  /** The request `baseProxyRequest` hands to `fetch`. */
  datatype ProxyRequest = ProxyRequest(url: string, verb: string, body: Json, cache: string,
                                       credentials: string, authorization: string, contentType: string)

  /** The request sent and what the returned promise settles to. */
  datatype ProxyRun = ProxyRun(request: ProxyRequest, result: Result<Json>)

  /** `action ? `?action=${action}` : ""`. */
  function QueryString(action: string): string
  {
    if action == "" then "" else "?action=" + action
  }

  function ProxyUrl(service: string, action: string): string
  {
    "/api/" + service + QueryString(action)
  }

  /** The position of the first `c` in `s`, or `|s|` when there is none. */
  function FirstIndex(s: string, c: char): (r: nat)
    ensures r <= |s|
    ensures r < |s| ==> s[r] == c
    ensures forall i :: 0 <= i < r ==> s[i] != c
  {
    if |s| == 0 then 0 else if s[0] == c then 0 else 1 + FirstIndex(s[1..], c)
  }

  /** Reads service and action back from a proxy URL. */
  function ParseProxyUrl(url: string): Option<(string, string)>
  {
    if |url| < 5 || url[..5] != "/api/" then None
    else
      var rest := url[5..];
      var q := FirstIndex(rest, '?');
      if q == |rest| then Some((rest, ""))
      else
        var query := rest[q + 1..];
        if |query| > 7 && query[..7] == "action=" then Some((rest[..q], query[7..])) else None
  }

  /** `FirstIndex` is determined by its contract. */
  lemma FirstIndexIs(s: string, c: char, k: nat)
    requires k <= |s| && (k < |s| ==> s[k] == c)
    requires forall i :: 0 <= i < k ==> s[i] != c
    ensures FirstIndex(s, c) == k
  {
  }

  /** How `ParseProxyUrl` reads a URL whose path after "/api/" is `rest`. */
  lemma ParseRest(rest: string)
    ensures ParseProxyUrl("/api/" + rest) ==
            var q := FirstIndex(rest, '?');
            if q == |rest| then Some((rest, ""))
            else
              var query := rest[q + 1..];
              if |query| > 7 && query[..7] == "action=" then Some((rest[..q], query[7..])) else None
  {
    var url := "/api/" + rest;
    assert url[..5] == "/api/" && url[5..] == rest;
  }

  lemma RoundTripWithAction(service: string, action: string)
    requires '?' !in service && action != ""
    ensures ParseProxyUrl("/api/" + service + ("?action=" + action)) == Some((service, action))
  {
    var query := "action=" + action;
    var rest := service + ['?'] + query;
    assert "/api/" + service + ("?action=" + action) == "/api/" + rest;
    ParseRest(rest);
    assert forall i :: 0 <= i < |service| ==> rest[i] == service[i];
    assert rest[|service|] == '?';
    FirstIndexIs(rest, '?', |service|);
    assert rest[|service| + 1..] == query;
    assert query[..7] == "action=" && query[7..] == action;
    assert rest[..|service|] == service;
  }

  lemma RoundTripWithoutAction(service: string)
    requires '?' !in service
    ensures ParseProxyUrl("/api/" + service) == Some((service, ""))
  {
    ParseRest(service);
    FirstIndexIs(service, '?', |service|);
  }

  /** The URL names the service and the action, and nothing else: for a
      service name without '?', both are read back from it. */
  lemma ProxyUrlRoundTrip(service: string, action: string)
    requires '?' !in service
    ensures ParseProxyUrl(ProxyUrl(service, action)) == Some((service, action))
  {
    if action == "" {
      assert ProxyUrl(service, action) == "/api/" + service;
      RoundTripWithoutAction(service);
    } else {
      RoundTripWithAction(service, action);
    }
  }

  /** `resp.status > 299 || resp.status < 200` throws; other statuses pass. */
  predicate Accepted(status: int)
  {
    200 <= status <= 299
  }

  /** The JSON a proxy call resolves to, or `None` when the call throws. */
  function Received(reply: FetchOutcome): Option<Json>
  {
    if reply.Got? && Accepted(reply.response.status) && reply.response.body.Some?
    then reply.response.body
    else None
  }

  /** The request `baseProxyRequest(token, service, action, body)` sends. */
  function BaseRequest(token: string, service: string, action: string, body: Json): (q: ProxyRequest)
    ensures q.url == ProxyUrl(service, action) && q.verb == "POST"
    ensures q.body == body && q.authorization == "Bearer " + token
  {
    ProxyRequest(ProxyUrl(service, action), "POST", body, "no-cache", "same-origin",
                 "Bearer " + token, "application/json")
  }

  /** What the promise returned by `baseProxyRequest` settles to, given the
      route's answer: a rejected `fetch` or a status outside 200..299
      throws, and so does a body that is not JSON. */
  function Settle(reply: FetchOutcome): (r: Result<Json>)
    ensures r.Ok? <==> reply.Got? && Accepted(reply.response.status) && reply.response.body.Some?
    ensures r.Ok? <==> Received(reply).Some?
    ensures r.Ok? ==> Received(reply) == Some(r.value)
  {
    match reply
    case NetworkError => Throw("fetch failed")
    case Got(resp) =>
      if resp.status > 299 || resp.status < 200 then Throw("response status")
      else ParseBody(resp)
  }

  /** `baseProxyRequest(token, service, action, body)`, with `reply` the
      route's answer to it. */
  function BaseProxyRequest(token: string, service: string, action: string, body: Json,
                            reply: FetchOutcome): (run: ProxyRun)
    ensures run.request.url == ProxyUrl(service, action) && run.request.verb == "POST"
    ensures run.request.body == body && run.request.authorization == "Bearer " + token
    ensures run.result.Ok? <==> reply.Got? && Accepted(reply.response.status) && reply.response.body.Some?
    ensures run.result.Ok? ==> Received(reply) == Some(run.result.value)
    ensures run.result.Throw? ==> Received(reply).None?
  {
    ProxyRun(BaseRequest(token, service, action, body), Settle(reply))
  }

  const DataRoute := "/api/data"
  const PromptRoute := "/api/prompt"
  const AiRoute := "/api/ai"

  /** `dataGuardProxyRequest`: the data-guard route, no action. */
  function DataGuardProxyRequest(token: string, body: Json, reply: FetchOutcome): (run: ProxyRun)
    ensures run.request.url == DataRoute && ParseProxyUrl(run.request.url) == Some(("data", ""))
    ensures run.request.body == body && run.request.authorization == "Bearer " + token
    ensures run.request == BaseRequest(token, "data", "", body) && run.result == Settle(reply)
  {
    ProxyUrlRoundTrip("data", "");
    BaseProxyRequest(token, "data", "", body, reply)
  }

  /** `promptGuardProxyRequest`: the prompt-guard route, no action. */
  function PromptGuardProxyRequest(token: string, body: Json, reply: FetchOutcome): (run: ProxyRun)
    ensures run.request.url == PromptRoute && ParseProxyUrl(run.request.url) == Some(("prompt", ""))
    ensures run.request.body == body && run.request.authorization == "Bearer " + token
    ensures run.request == BaseRequest(token, "prompt", "", body) && run.result == Settle(reply)
  {
    ProxyUrlRoundTrip("prompt", "");
    BaseProxyRequest(token, "prompt", "", body, reply)
  }

  /** `aiProxyRequest`: the chat route, no action. */
  function AiProxyRequest(token: string, body: Json, reply: FetchOutcome): (run: ProxyRun)
    ensures run.request.url == AiRoute && ParseProxyUrl(run.request.url) == Some(("ai", ""))
    ensures run.request.body == body && run.request.authorization == "Bearer " + token
    ensures run.request == BaseRequest(token, "ai", "", body) && run.result == Settle(reply)
  {
    ProxyUrlRoundTrip("ai", "");
    BaseProxyRequest(token, "ai", "", body, reply)
  }
}

=== FILE: requests.dfy ===
/** The server-side request helpers: bearer-token extraction and validation
    against the AuthN service, the POST helper with its success predicate,
    the bounded polling of asynchronous (202) requests, and the URL and
    header formatting for calls to the security services. */
module Requests {
  import opened Types
  import opened Json
  import opened Http
  import Text

  /** The environment variables the helpers read; `None` when unset, which a
      template literal renders as "undefined". */
  datatype Env = Env(domain: Option<string>, clientToken: Option<string>, serviceToken: Option<string>)

  function Interpolate(v: Option<string>): string
  {
    match v
    case None => "undefined"
    case Some(s) => s
  }

  datatype Headers = Headers(authorization: string, contentType: string)

  /** A request to a security service: method, URL, headers and the JSON
      value whose serialisation is the body (`None` for a GET). */
  datatype OutboundRequest = OutboundRequest(verb: string, url: string, headers: Headers, body: Option<Json>)

  // ---------------------------------------------------------------- URLs

  /** `https://{service}.{domain}/{endpoint}`. */
  function GetUrl(service: string, endpoint: string, env: Env): (r: string)
    ensures "https://" <= r && |r| > |endpoint|
    ensures r[|r| - |endpoint| - 1..] == "/" + endpoint
  {
    "https://" + service + "." + Interpolate(env.domain) + "/" + endpoint
  }

  /** The first label of the host of an `https://` URL. */
  function ServiceOf(url: string): Option<string>
  {
    if "https://" <= url then Some(Text.Split(url[8..], '.')[0]) else None
  }

  /** A service name without a dot is recovered from the URL built for it,
      whatever the domain and endpoint: different services get different hosts. */
  lemma GetUrlNamesService(service: string, endpoint: string, env: Env)
    requires '.' !in service
    ensures ServiceOf(GetUrl(service, endpoint, env)) == Some(service)
  {
    var url := GetUrl(service, endpoint, env);
    var rest := Interpolate(env.domain) + "/" + endpoint;
    var t := "." + rest;
    assert url[8..] == service + t;
    Text.SplitFreePrefix(service, t, '.');
    assert t[0] == '.';
    assert Text.Split(t, '.')[0] == "";
    assert service + "" == service;
  }

  /** The headers of every call to a security service: the AuthN client
      token when `useClientToken`, the service token otherwise. */
  function GetHeaders(useClientToken: bool, env: Env): (h: Headers)
    ensures var token := Interpolate(if useClientToken then env.clientToken else env.serviceToken);
            ' ' !in token ==> ExtractToken(Some(h.authorization)) == token
    ensures h.contentType == "application/json"
  {
    var token := Interpolate(if useClientToken then env.clientToken else env.serviceToken);
    var h := Headers("Bearer " + token, "application/json");
    if ' ' in token then h
    else
      BearerRoundTrip("Bearer", token);
      assert "Bearer" + " " + token == "Bearer " + token;
      h
  }

  // --------------------------------------------------------------- tokens

  function LowerAscii(c: char): char
  {
    if 'A' <= c <= 'Z' then (c as int + 32) as char else c
  }

  /** `/^bearer/i`: the header starts with "bearer" in any letter case. */
  predicate MatchesBearer(a: string)
  {
    |a| >= 6 && forall i :: 0 <= i < 6 ==> LowerAscii(a[i]) == "bearer"[i]
  }

  /** `auth?.match(BEARER_RE) ? auth.split(" ")[1] : ""`, where a missing
      second field (`undefined`) is, like "", not a token. */
  function ExtractToken(auth: Option<string>): (t: string)
    ensures t != "" ==> auth.Some? && MatchesBearer(auth.value) && ' ' !in t
    ensures auth.None? || !MatchesBearer(auth.value) ==> t == ""
  {
    match auth
    case None => ""
    case Some(a) =>
      if MatchesBearer(a) then
        var fields := Text.Split(a, ' ');
        Text.SplitFieldsAvoidSeparator(a, ' ');
        if |fields| >= 2 then fields[1] else ""
      else ""
  }

  /** A header "{scheme} {t}" with a bearer scheme yields exactly the token `t`. */
  lemma BearerRoundTrip(scheme: string, t: string)
    requires MatchesBearer(scheme) && ' ' !in scheme && ' ' !in t
    ensures ExtractToken(Some(scheme + " " + t)) == t
  {
    var a := scheme + " " + t;
    assert a[..6] == scheme[..6];
    assert MatchesBearer(a);
    Text.JoinThenSplit([scheme, t], ' ');
    assert Text.Join([scheme, t], " ") == a;
  }

  /** The header built by `getHeaders` carries the client token exactly when
      `useClientToken` is set (for distinct, space-free, non-empty tokens). */
  lemma HeadersChooseToken(useClientToken: bool, env: Env, client: string, service: string)
    requires env.clientToken == Some(client) && env.serviceToken == Some(service)
    requires ' ' !in client && ' ' !in service && client != "" && service != "" && client != service
    ensures ExtractToken(Some(GetHeaders(useClientToken, env).authorization)) == client <==> useClientToken
  {
    assert MatchesBearer("Bearer");
    BearerRoundTrip("Bearer", client);
    BearerRoundTrip("Bearer", service);
    assert "Bearer " + client == "Bearer" + " " + client;
    assert "Bearer " + service == "Bearer" + " " + service;
  }

  // -------------------------------------------------------------- polling

  const MaxRetries: nat := 3

  /** The waits `handleAsync` sleeps before its three polls, in milliseconds. */
  const Schedule: seq<nat> := [4000, 9000, 16000]

  datatype PollRun = PollRun(waits: seq<nat>, outcome: Result<HttpResponse>)

  /** The `handleAsync` loop entered with `retryCount` and current response
      `resp`: while the status is 202 and `retryCount <= 3`, increment the
      counter, wait `retryCount² · 1000` ms and GET the request URL again.
      `poll(k)` is the reply to the k-th GET (0-based); a rejected GET
      propagates. */
  function Poll(resp: HttpResponse, retryCount: nat, poll: nat -> FetchOutcome): (run: PollRun)
    requires 1 <= retryCount <= MaxRetries + 1
    ensures |run.waits| <= MaxRetries + 1 - retryCount
    ensures forall k :: 0 <= k < |run.waits| ==>
              run.waits[k] == (retryCount + 1 + k) * (retryCount + 1 + k) * 1000
    ensures |run.waits| == 0 <==> resp.status != 202 || retryCount > MaxRetries
    ensures |run.waits| == 0 ==> run.outcome == Ok(resp)
    ensures forall k :: retryCount - 1 <= k < retryCount + |run.waits| - 2 ==>
              poll(k).Got? && poll(k).response.status == 202
    ensures |run.waits| > 0 ==>
              var last := poll(retryCount - 1 + |run.waits| - 1);
              match last
              case NetworkError => run.outcome.Throw?
              case Got(r) =>
                run.outcome == Ok(r) && (r.status != 202 || retryCount + |run.waits| == MaxRetries + 1)
    decreases MaxRetries + 1 - retryCount
  {
    if resp.status == 202 && retryCount <= MaxRetries then
      var next := retryCount + 1;
      var wait := next * next * 1000;
      match poll(retryCount - 1)
      case NetworkError => PollRun([wait], Throw("fetch failed"))
      case Got(r) =>
        var rest := Poll(r, next, poll);
        PollRun([wait] + rest.waits, rest.outcome)
    else
      PollRun([], Ok(resp))
  }

  /** From a first 202 reply, `handleAsync` makes at least one and at most
      three GETs, sleeping 4000, 9000 and 16000 ms before them in that order,
      and returns the first reply that is not 202, or the third. */
  lemma PollingSchedule(resp: HttpResponse, poll: nat -> FetchOutcome)
    requires resp.status == 202
    ensures var run := Poll(resp, 1, poll);
            1 <= |run.waits| <= MaxRetries && run.waits == Schedule[..|run.waits|]
            && (run.outcome.Ok? ==> run.outcome.value.status != 202 || |run.waits| == MaxRetries)
  {
    var run := Poll(resp, 1, poll);
    assert forall k :: 0 <= k < |run.waits| ==> run.waits[k] == Schedule[k];
  }

  /** The URL `handleAsync` polls: `https://{domain}/request/{data?.request_id}`. */
  function PollUrl(env: Env, data: Json): (r: string)
    ensures var id := if data.JObj? then Lookup(data.fields, "request_id") else None;
            && (id.Some? && id.value.JStr? ==>
                  r == "https://" + Interpolate(env.domain) + "/request/" + id.value.s)
            && (id.None? ==> r == "https://" + Interpolate(env.domain) + "/request/undefined")
  {
    "https://" + Interpolate(env.domain) + "/request/" + ToJsString(OptMember(Some(data), "request_id"))
  }

  // ------------------------------------------------------------- postRequest

  /** The parsed reply of `postRequest` and its `success` flag. */
  datatype Posted = Posted(success: bool, json: Json)

  datatype PostRun = PostRun(request: OutboundRequest, pollUrl: Option<string>, waits: seq<nat>,
                             outcome: Result<Posted>)

  /** `json.status === "Success"`. */
  predicate IsSuccess(json: Json)
  {
    json.JObj? && Lookup(json.fields, "status") == Some(JStr("Success"))
  }

  /** The last step of `postRequest`: parse the final reply and read its status. */
  function Conclude(r: HttpResponse): (p: Result<Posted>)
    ensures p.Ok? <==> r.body.Some? && r.body.value != JNull
    ensures p.Ok? ==> p.value.json == r.body.value && (p.value.success <==> IsSuccess(p.value.json))
  {
    match ParseBody(r)
    case Throw(e) => Throw(e)
    case Ok(json) =>
      match Member(Some(json), "status")
      case Throw(e) => Throw(e)
      case Ok(status) => Ok(Posted(status == Some(JStr("Success")), json))
  }

  /** `postRequest(url, body, useClientToken)`: one POST, polling only when
      its status is 202, then the parsed final reply with its success flag. */
  function PostRequest(url: string, body: Json, useClientToken: bool, env: Env, ex: Exchange): (run: PostRun)
    ensures run.request == OutboundRequest("POST", url, GetHeaders(useClientToken, env), Some(body))
    ensures |run.waits| <= MaxRetries && run.waits == Schedule[..|run.waits|]
    ensures |run.waits| > 0 || run.pollUrl.Some? <==>
              ex.first.Got? && ex.first.response.status == 202 && ex.first.response.body.Some?
    ensures ex.first.NetworkError? ==> run.outcome.Throw?
    ensures ex.first.Got? && ex.first.response.status == 202 && ex.first.response.body.Some? ==>
              run.pollUrl == Some(PollUrl(env, ex.first.response.body.value))
    ensures ex.first.Got? && ex.first.response.status == 202 && ex.first.response.body.Some? ==>
              var p := Poll(ex.first.response, 1, ex.poll);
              run.waits == p.waits && (p.outcome.Ok? ==> run.outcome == Conclude(p.outcome.value))
              && (p.outcome.Throw? ==> run.outcome.Throw?)
    ensures ex.first.Got? && ex.first.response.status == 202 && ex.first.response.body.None? ==>
              run.outcome.Throw? && run.waits == []
    ensures ex.first.Got? && ex.first.response.status != 202 ==> run.outcome == Conclude(ex.first.response)
    ensures run.outcome.Ok? ==> (run.outcome.value.success <==> IsSuccess(run.outcome.value.json))
  {
    var request := OutboundRequest("POST", url, GetHeaders(useClientToken, env), Some(body));
    match ex.first
    case NetworkError => PostRun(request, None, [], Throw("fetch failed"))
    case Got(r) =>
      if r.status == 202 then
        match ParseBody(r)
        case Throw(e) => PostRun(request, None, [], Throw(e))
        case Ok(data) =>
          var polled := Poll(r, 1, ex.poll);
          PollingSchedule(r, ex.poll);
          var outcome := match polled.outcome
                         case Throw(e) => Throw(e)
                         case Ok(final) => Conclude(final);
          PostRun(request, Some(PollUrl(env, data)), polled.waits, outcome)
      else
        PostRun(request, None, [], Conclude(r))
  }

  // ------------------------------------------------------------ validateToken

  /** `ValidatedToken`; `username` and `profile` are whatever the AuthN reply
      holds at `result.owner` and `result.profile` (possibly `undefined`). */
  datatype Validation = Validation(success: bool, username: Option<Json>, profile: Option<Json>)

  datatype ValidateRun = ValidateRun(call: Option<PostRun>, result: Result<Validation>)

  const TokenCheckEndpoint := "v2/client/token/check"

  /** `validateToken(request)`: no token means no outbound call and an
      unsuccessful validation; otherwise one POST of `{token}` to the AuthN
      token-check endpoint with the client token. */
  function ValidateToken(auth: Option<string>, env: Env, ex: Exchange): (run: ValidateRun)
    ensures ExtractToken(auth) == "" <==> run.call.None?
    ensures run.call.None? ==> run.result == Ok(Validation(false, None, None))
    ensures run.call.Some? ==>
              run.call.value.request.url == GetUrl("authn", TokenCheckEndpoint, env)
              && run.call.value.request.headers == GetHeaders(true, env)
              && run.call.value.request.body == Some(JObj([Field("token", JStr(ExtractToken(auth)))]))
    ensures run.result.Ok? && run.result.value.success ==>
              run.call.Some? && run.call.value.outcome.Ok? && IsSuccess(run.call.value.outcome.value.json)
    ensures run.call.Some? && run.call.value.outcome.Ok? ==>
              run.result.Ok?
              && (run.result.value.success <==> IsSuccess(run.call.value.outcome.value.json))
    ensures run.call.Some? ==> (run.result.Throw? <==> run.call.value.outcome.Throw?)
    ensures run.call.Some? && run.result.Ok? ==>
              var json := run.call.value.outcome.value.json;
              run.result.value.username == OptMember(OptMember(Some(json), "result"), "owner")
              && run.result.value.profile == OptMember(OptMember(Some(json), "result"), "profile")
  {
    var token := ExtractToken(auth);
    if token == "" then ValidateRun(None, Ok(Validation(false, None, None)))
    else
      var post := PostRequest(GetUrl("authn", TokenCheckEndpoint, env),
                              JObj([Field("token", JStr(token))]), true, env, ex);
      match post.outcome
      case Throw(e) => ValidateRun(Some(post), Throw(e))
      case Ok(p) =>
        var result := OptMember(Some(p.json), "result");
        ValidateRun(Some(post), Ok(Validation(p.success, OptMember(result, "owner"), OptMember(result, "profile"))))
  }
}

=== FILE: text.dfy ===
/** The two string operations of JavaScript the modelled code relies on:
    `Array.prototype.join` and `String.prototype.split` with a one-character
    separator, and the facts about splitting that the model uses. */
module Text {

  /** `parts.join(sep)`: the parts in order, with `sep` between neighbours. */
  function Join(parts: seq<string>, sep: string): string
  {
    if |parts| == 0 then ""
    else if |parts| == 1 then parts[0]
    else parts[0] + sep + Join(parts[1..], sep)
  }

  /** `s.split(c)` for a one-character separator `c`: the maximal runs of
      non-`c` characters, including the empty runs before a leading `c`,
      between two adjacent `c`s and after a trailing `c`. */
  function Split(s: string, c: char): (r: seq<string>)
    ensures |r| >= 1
    decreases |s|
  {
    if |s| == 0 then [""]
    else
      var rest := Split(s[1..], c);
      if s[0] == c then [""] + rest
      else [[s[0]] + rest[0]] + rest[1..]
  }

  /** No field produced by `Split` contains the separator. */
  lemma {:induction false} SplitFieldsAvoidSeparator(s: string, c: char)
    ensures forall i :: 0 <= i < |Split(s, c)| ==> c !in Split(s, c)[i]
    decreases |s|
  {
    if |s| > 0 {
      SplitFieldsAvoidSeparator(s[1..], c);
      var rest := Split(s[1..], c);
      if s[0] != c {
        var r := Split(s, c);
        forall i | 0 <= i < |r|
          ensures c !in r[i]
        {
          if i == 0 {
            assert r[0] == [s[0]] + rest[0];
          } else {
            assert r[i] == rest[i];
          }
        }
      }
    }
  }

  /** Splitting a separator-free prefix glued to `t` only extends the first field of `t`. */
  lemma {:induction false} SplitFreePrefix(p: string, t: string, c: char)
    requires c !in p
    ensures Split(p + t, c) == [p + Split(t, c)[0]] + Split(t, c)[1..]
    decreases |p|
  {
    if |p| > 0 {
      assert (p + t)[1..] == p[1..] + t;
      assert (p + t)[0] == p[0];
      SplitFreePrefix(p[1..], t, c);
      var r := Split(p[1..] + t, c);
      var st := Split(t, c);
      assert r[0] == p[1..] + st[0] && r[1..] == st[1..];
      assert Split(p + t, c) == [[p[0]] + r[0]] + r[1..];
      assert [p[0]] + (p[1..] + st[0]) == p + st[0];
    } else {
      var r := Split(t, c);
      assert p + t == t && p + r[0] == r[0];
      assert r == [r[0]] + r[1..];
    }
  }

  /** Joining separator-free parts and splitting again gives back the parts. */
  lemma {:induction false} JoinThenSplit(parts: seq<string>, c: char)
    requires |parts| >= 1
    requires forall i :: 0 <= i < |parts| ==> c !in parts[i]
    ensures Split(Join(parts, [c]), c) == parts
    decreases |parts|
  {
    var p := parts[0];
    if |parts| == 1 {
      SplitFreePrefix(p, "", c);
      assert p + "" == p;
    } else {
      var tail := Join(parts[1..], [c]);
      JoinThenSplit(parts[1..], c);
      var t := [c] + tail;
      assert t[1..] == tail;
      assert Split(t, c) == [""] + Split(tail, c);
      SplitFreePrefix(p, t, c);
      assert Join(parts, [c]) == p + t;
      assert p + "" == p;
      assert parts == [p] + parts[1..];
    }
  }
}

=== FILE: types.dfy ===
/** Option and Result, the two wrappers every other module uses.
    `Result` stands for a JavaScript computation that either yields a value
    or throws; the thrown value is kept only as a short description, since
    every `catch` in the modelled code ignores it. */
module Types {

  datatype Option<+T> = None | Some(value: T) {

    /** The wrapped value, or `default` when there is none. */
    function GetOr(default: T): T {
      match this
      case Some(v) => v
      case None => default
    }
  }

  datatype Result<+T> = Ok(value: T) | Throw(error: string)
}
